=== FILE: README.md ===
# gemini-xmpp message handler, modelled in Dafny

This project models the decision logic of the Gemini XMPP bot's group-chat
handler `muc_message` in `main.py` and proves properties of that model.

For one incoming room message, the handler does the following:

- It drops the bot's own echoes.
- It answers messages addressed to the bot's nick. The `forget` and `help`
  commands give fixed replies. Anything else is a question for the room's
  Gemini conversation. An answer longer than 315 characters is cut to 300
  characters, followed by the link to the uploaded full text, or by the
  upload's error text when the upload fails.
- It runs the image-generation workflow when the body starts with the image
  model's name.
- Unless the message is the bot's own echo or an image request that yields
  no image, it then scans the body's unquoted lines for URLs and
  fetches each URL once, in first-seen order. For each URL it replies with
  the text that fetch gives: the model's description of an accepted image,
  a too-large notice, or a fetch error. It sends no reply when that text is
  empty, that is, for a file that is not an accepted image, or when the
  model's description is empty.

Everything the handler asks of the outside world is recorded as an `Action`,
in order. The world's answers are inputs to the model (`Pipeline.World`):

- the model's answer or failure;
- the upload's link or error;
- the generated images, each with its upload outcome and description;
- for each URL, the response headers and what reading and describing it gave.

The per-room conversations (the `chats` dictionary) are a registry from room
to an abstract conversation handle. A supply of fresh handles stands in for
`client.chats.create`.

Modules, one file each:

| file | module | models |
|---|---|---|
| text.dfy | Text | `startswith`, total slicing, ASCII `lower`, `splitlines`/`join`, decimal `str`/`int` |
| urls.dfy | Urls | the URL pattern, `re.findall` as a greedy left-to-right scan, the de-duplicating extraction loop |
| sessions.dfy | Sessions | the `chats` registry: get-or-create and delete |
| effects.dfy | Effects | collaborator outcomes, the action trace, and filtering a trace by kind |
| replies.dfy | Replies | the fixed reply texts, the oversize fallback, the reply quote, the image follow-up |
| dispatch.dfy | Dispatch | echo suppression, nick prefix, command selection, image trigger |
| describe.dfy | Describe | the header gate of `describe_from_url` and its outcomes |
| images.dfy | Images | the loop over generated images |
| pipeline.dfy | Pipeline | `respond_text` and the whole of `muc_message` |

The model follows the code as written, including behaviour a reader may not
expect:

- A line is skipped as a quote only when its first character is `>`. A line
  such as `Check this: > http://old.example` is still scanned, and its URL is
  fetched.
- The reply quote joins the body's lines with `"> "` and no line break. The
  quote therefore reads `nick\n> first> second`, not one quoted line per
  line (`Replies.Quote`).
- When the generator yields no image, the handler evaluates
  `msg['body'].split('\n').join(...)`. That calls `.join` on a list, which
  raises, so no failure notice is sent and the URL scan does not run. This
  path is modelled as the `Aborted` outcome, which has only the generator
  request in its trace (`Pipeline.AbortIff`).

## Model

| member | source | states |
|---|---|---|
| Text.SplitLinesRoundTrip | main.py:298 | Splitting a body into lines and joining them with line breaks gives back the body, apart from a final line break, so no character is lost or invented |
| Text.JoinLinesIsReplace | main.py:230 | Joining the lines with a separator is the same as replacing each inner line break with that separator |
| Text.IntToString | main.py:94 | The decimal text of any integer is not empty, is a minus sign exactly for a negative number followed by digits, has no leading zero ("0" alone for zero, never "-0"), and parses back to the same integer |
| Text.Lower | main.py:202 | Lower-casing keeps the length, maps each character by itself, leaves no upper-case letter, and leaves every other character as it was |
| Text.SplitLines | main.py:298 | The lines contain no line break, and there are lines exactly when the body is not empty |
| Text.LowerPrefixHasNoUpper | main.py:242 | A prefix of a lower-cased text contains no upper-case letter |
| Urls.UrlCharIsRange | main.py:44 | The pattern's character class is exactly `a`-`z`, the ASCII range `$`..`_` and `!`; the other alternatives add nothing |
| Urls.SchemeAt | main.py:44 | A match starts only at `http://` or `https://` followed by at least one class character. Where `https://` and a class character stand, the match takes the longer scheme; where `http://` and a class character stand, it takes that scheme |
| Urls.RunEnd | main.py:44 | The greedy run of class characters ends at the end of the line or at the first character outside the class |
| Urls.Scan | main.py:302 | `findall` yields spans in increasing, non-overlapping order; each span is a scheme plus a maximal run; every position where a match could start lies inside one of them |
| Urls.ScanMissesNothing | main.py:302 | Every occurrence of `http://` or `https://` followed by a class character is covered by a match of the scan |
| Urls.FindAll | main.py:302 | Every match of one line is a well-formed URL: a scheme followed by a non-empty run of class characters |
| Urls.ExtractedUrlsAreMatches | main.py:297-302 | Every extracted URL starts with the scheme, has at least one class character after it, and ends where the class run of its line ends |
| Urls.CandidatesFromUnquoted | main.py:298-302 | A text is a candidate exactly when one of the lines not starting with `>` yields it as a match |
| Urls.DedupFrom | main.py:303-306 | The de-duplicating loop only appends: the URLs already found stay at the front |
| Urls.CollectLines | main.py:297-306 | The line-by-line loop only appends to the URLs found so far |
| Urls.ExtractUrls | main.py:297-306 | The extracted URLs have no duplicates, and each is a well-formed URL |
| Urls.DedupMembers | main.py:303-306 | After the loop, the found URLs are exactly those found before plus those met |
| Urls.DedupNoDuplicates | main.py:303-306 | The loop never records a URL twice |
| Urls.DedupOrder | main.py:303-306 | The newly recorded URLs are new, and they are ordered by their first occurrence in the input |
| Urls.DedupAppend | main.py:297-306 | Continuing the loop over a second list of candidates equals running it once over both lists |
| Urls.CollectLinesIsDedup | main.py:297-306 | The nested line-by-line, match-by-match loop equals de-duplicating all candidates in order |
| Urls.ExtractUrlsSpec | main.py:297-306 | The extracted URLs have no duplicates; a text is extracted exactly when some line not starting with `>` matches it; the URLs appear in first-seen order |
| Sessions.Empty | main.py:54 | The registry starts with no conversation and satisfies its invariant |
| Sessions.GetOrCreate | main.py:117-120 | Afterwards the room has a conversation and the returned handle is it. An existing entry is returned and the registry is unchanged. A new one is fresh, and no other room changes. The invariant holds: handles are distinct and below the supply |
| Sessions.Forget | main.py:106-108 | Afterwards the room has no conversation. A room without one leaves the registry unchanged. No other room changes, and the invariant is preserved |
| Sessions.GetOrCreateIdempotent | main.py:58-61 | A second lookup of the same room finds the conversation the first created and changes nothing |
| Sessions.ForgetIdempotent | main.py:106-108 | Forgetting twice is the same as forgetting once |
| Sessions.ForgetThenCreateIsFresh | main.py:106-120 | After a forget, the next question starts a conversation different from every conversation that existed before |
| Replies.Finalize | main.py:204-227 | The reply body is never empty. An empty answer becomes the refusal text, and an answer of at most 315 characters is sent as is. A longer one becomes its first 300 characters, the truncation marker and the link or upload error, with length 300 + 16 + the link's length |
| Replies.FinalizeBounded | main.py:207-227 | A reply body is at most 315 characters long unless it is the truncated form, which is exactly 300 + 16 + the length of the link or error text |
| Replies.FinalizeKeepsReplyOnUploadFailure | main.py:213-227 | When the upload fails, the truncated reply still starts with the first 300 characters of the answer and ends with the error text |
| Replies.Quote | main.py:230 | The quote is the sender's nick, a line break, `"> "`, and the body with every inner line break replaced by `"> "` (a single final line break is dropped) |
| Replies.FollowUp | main.py:278 | An image's follow-up starts with `"> "`, the link and a line break, and the rest is exactly the description |
| Dispatch.KeyBody | main.py:105 | The key body is empty for a body no longer than the nick plus two, and otherwise is what follows the first nick-length-plus-two characters |
| Dispatch.Prompt | main.py:245 | The prompt is empty for a body no longer than the model name plus one, and otherwise is what follows the first model-name-length-plus-one characters |
| Dispatch.Classify | main.py:198-245 | A question carries the whole original body, not the key body, and an image request carries the prompt slice |
| Dispatch.EchoIffOwnNick | main.py:198-199 | A message is an echo exactly when its sender is the bot's nick |
| Dispatch.AddressWinsOverTrigger | main.py:202-242 | A message addressed to the bot is a command or a question, even when it also starts with the image trigger |
| Dispatch.CommandIff | main.py:105-110 | Both directions: forget when the key body starts with `forget`, and help when it starts with `help` but not `forget`, both compared case-sensitively |
| Dispatch.ImageRequestIff | main.py:242 | Both directions: an image request exactly when the message is not an echo, not addressed to the bot, and its lower-cased body starts with the model name as written |
| Dispatch.PassiveIff | main.py:198-242 | Both directions: a message gets only the URL scan exactly when it is not the bot's own, not addressed to the bot and not an image request; a question is always addressed to the bot and never the bot's own |
| Dispatch.ShortAddressedIsMention | main.py:105 | An addressed body too short to hold a command word is a question, not an error |
| Dispatch.UpperCaseModelNeverTriggers | main.py:242 | A model name containing an upper-case letter never triggers image generation |
| Dispatch.ForgetExample | main.py:105-109 | `Bot: forget now`, sent to a bot called `Bot`, is the forget command |
| Dispatch.CaseExample | main.py:202 | `bot, Forget` is addressed to `Bot`, since the nick is matched without case, but it is a question, since the command word is matched with case |
| Describe.FetchGate | main.py:87-94 | Both directions for each outcome, in the code's order. A content type other than the six accepted formats is not an image. A length that does not parse is an error carrying the parser's error text. A length above the maximum is too large and carries that length. Otherwise the file is accepted with its type. A missing type counts as JPEG and a missing length as 0 |
| Describe.MissingTypeIsJpeg | main.py:87-88 | A response without a content type is judged exactly as a JPEG would be, so it always passes the type check |
| Describe.MissingLengthIsZero | main.py:91-92 | A response without a length is judged exactly as one declaring 0 bytes |
| Describe.TooLargeText | main.py:94 | The too-large notice starts with `File too large (` |
| Describe.TooLargeTextNamesLength | main.py:94 | The number right after `File too large (` is the declared length's decimal text, and it reads back as that length |
| Describe.FetchErrorText | main.py:99 | A fetch error always produces a message that is not empty |
| Describe.DescriptionText | main.py:82-101 | The text returned for a URL, outcome by outcome: the fetch error for an unreachable URL, silence for a type that is not accepted, the fetch error for a length that does not parse, the too-large notice, the fetch error for a failed read, and the model's reply otherwise. It is empty exactly for a type that is not accepted or an empty model reply |
| Describe.DescribeUrl | main.py:82-101 | Each URL is fetched first. The model is asked about it exactly when the gate accepted the file and its body was read, and then on the room's conversation with the file's type; otherwise the registry is unchanged. The text is, outcome by outcome: the fetch error for an unreachable URL, silence for a type that is not accepted, the fetch error for a length that does not parse, the too-large notice for a file over the limit, the fetch error for a failed read, and the model's reply otherwise. No other room's conversation changes |
| Describe.SilentIff | main.py:82-101 | A URL is described by silence exactly when its type is not an accepted image, or when the model gave an empty answer about an accepted one; too-large files and fetch errors always produce text |
| Images.ImageActions | main.py:249-283 | One image gives an upload, a media message with its link, and a description request on the room's conversation. A fourth action, the follow-up quoting the link (or upload error) and carrying the description, comes exactly when the description is not empty |
| Images.FollowUps | main.py:276-283 | The expected follow-ups for a list of images: one per image with a non-empty description, in order, so at most one per image, all to the room |
| Images.MediaMessages | main.py:265-274 | The expected media messages for a list of images: one per image, in order, each carrying that image's link or upload error |
| Images.ImageLoop | main.py:244-283 | The image loop changes no other room's conversation and preserves the registry invariant |
| Images.ImageLoopRegistry | main.py:276 | The loop leaves the registry as one lookup of the room would |
| Images.FilterImageActions | main.py:249-283 | One image's actions hold exactly one upload, one media message, one description request, no fetch, and the follow-up with that image's link and description exactly when the description is not empty |
| Images.ImageLoopUploads | main.py:244-258 | With N images there are exactly N uploads of `generated.jpeg` as `image/jpeg` |
| Images.ImageLoopMedia | main.py:265-274 | With N images there are exactly N media messages, carrying each image's link or upload error in order |
| Images.ImageLoopAsks | main.py:276 | With N images there are exactly N description requests, all on the conversation the room had, or got, at the first image |
| Images.ImageLoopFollowUps | main.py:276-283 | The loop's follow-ups are exactly the expected follow-ups: one per image with a non-empty description, in blob order |
| Images.ImageLoopFetchesNothing | main.py:244-283 | The image loop fetches no URL |
| Images.ImageLoopGeneratesNothing | main.py:244-283 | The image loop makes no further request to the image generator |
| Images.ImageLoopStaysInRoom | main.py:244-283 | Every message and model call of the loop goes to the message's room and to the conversation the registry holds for it afterwards |
| Pipeline.Respond | main.py:104-126 | Forget drops the room's conversation and help leaves the registry alone. Neither calls the model. A question sends the whole body to the room's conversation: the existing one is kept and reused, and a new one is created only when the room has none. No other room changes |
| Pipeline.ReplyActions | main.py:204-240 | The long-answer page is uploaded exactly when the answer is oversized, and before the reply. The reply quotes the message and carries the finalized answer |
| Pipeline.Branch | main.py:202-283 | None of the branches before the URL scan fetches a URL. Each changes no other room's conversation, keeps the registry invariant, sends only to the message's room and asks only the room's conversation. An image request starts with the generator request, and a passive message does nothing |
| Pipeline.UrlStep | main.py:308-319 | One URL is fetched exactly once. Its only reply quotes the URL and carries exactly the text its fetch outcome gives, and comes only when that text is not empty. It creates the room's conversation only together with a description request |
| Pipeline.UrlScan | main.py:297-319 | The URL loop changes no other room's conversation, keeps the registry invariant, talks only to the message's room, and asks only the room's current conversation |
| Pipeline.ReplyFor | main.py:310-319 | A URL gets one reply, quoting the URL and carrying the text, exactly when the text is not empty, and none otherwise |
| Pipeline.ScanReplies | main.py:308-319 | The expected replies for a list of URLs: at most one per URL, each to the room, quoting one of the URLs, with a non-empty body |
| Pipeline.UrlScanReplies | main.py:297-319 | The loop's replies are exactly the expected replies: one per URL whose outcome gives text, in order, whatever the registry holds |
| Effects.UploadText | main.py:213-223 | What stands where the link is expected: the link of a successful upload, or the error text of a failed one |
| Effects.ReplyText | main.py:122-126 | What a model call gives the handler: the answer's text, or the error text when the call failed |
| Effects.Fetches | main.py:309 | The expected fetches for a list of URLs: one per URL, in order |
| Pipeline.UrlScanFetchesEach | main.py:297-309 | The loop fetches every URL of its list exactly once, in order. A failure for one URL does not stop the others |
| Pipeline.UrlScanOnlyDescribes | main.py:297-319 | The URL loop only fetches, asks for descriptions and replies. It never uploads, posts media or asks the generator |
| Pipeline.UrlScanCreatesOnlyWhenAsking | main.py:297-319 | The URL loop gives the room a conversation only if it asks the model about a linked image |
| Pipeline.EchoDoesNothing | main.py:198-199 | The bot's own message produces no action and leaves the registry unchanged |
| Pipeline.AbortIff | main.py:285-295 | The handler stops early exactly on an image request for which no image came. Its trace is then the generator request alone, with no URL fetched |
| Pipeline.ImageRequestTrace | main.py:242-306 | When images come, the trace is the generator request with the prompt, then the image loop, then the URL scan, and the handler completes |
| Pipeline.UrlScanAlwaysRuns | main.py:297-306 | Unless the handler stopped early, it fetches exactly the extracted URLs, each once and in first-seen order, whatever branch ran before |
| Pipeline.HandleMessage | main.py:196-319 | Handling a message leaves every other room's conversation unchanged and keeps conversations distinct. It sends only to the message's room, and every model call uses the conversation the registry holds for that room afterwards |
| Pipeline.PassiveFlow | main.py:297-319 | A message that is neither addressed to the bot nor an image request gets only the URL scan: every extracted URL fetched once in order, and exactly the expected replies |
| Pipeline.MentionFlow | main.py:202-240 | A question first sends the whole body to the room's conversation. The page is uploaded only for an oversized answer: the trace's only upload, right before the reply. Then the reply quoting the message carries the finalized answer |
| Pipeline.QuestionUploads | main.py:207-223 | A question's trace holds exactly one upload of the rendered page when the answer is oversized, and none otherwise; the URL scan uploads nothing |
| Pipeline.ForgetFlow | main.py:104-109 | The forget command first replies with the fixed text and never sends text to the model. The room has no conversation afterwards, unless a linked image in the same message was described |
| Pipeline.ImageRequestFlow | main.py:242-283 | An image request with N images asks the generator once, first, with the prompt; no other generator request follows. The handler then makes exactly N uploads and N media messages in blob order, and exactly the expected follow-ups. The URL scan adds none of these |

## Left out

- XMPP transport: connecting, joining rooms, building XEP-0461 replies, sending stanzas and the XEP-0363 upload protocol. Sends and uploads appear only as `Action` values, and an upload's outcome is an input.
- The HTTP fetch, the Gemini conversation calls and the image generator request are left out. Their outcomes are inputs: a fetch's headers and body-read result, a model answer or the text of the exception it raised, and the list of generated images. A generator failure after some images is the same as a shorter list.
- Markdown rendering and UTF-16 encoding of a long answer, and base64 decoding of generated images: library calls whose output the handler does not inspect.
- Loading `login.json`: the nick, image-model name and `max_file_len` in MiB are fields of `Dispatch.Config`.
- Concurrency: the handler is one coroutine with no locks. Interleaving of handlers for different messages is not modelled.
- The `print` calls: logging only.
- Text.Lower: lower-cases ASCII letters only. Python's `str.lower` also folds other scripts, and can change a text's length.
- Text.SplitLines: splits on `\n` only. Python's `splitlines` also breaks on `\r`, `\r\n`, form feeds and Unicode separators.
- The zero-image failure notice is not sent. As written, the handler raises before sending it, so the model records an `Aborted` outcome instead.
- Effects.Filter: states only that filtering does not lengthen a trace. The lemmas about particular traces state their exact filtered contents.
- The message's sender is one string, used both for echo detection (`mucnick`) and for the reply quote (the resource of `from`). In a group chat the two are the same nick.

=== FILE: describe.dfy ===
/** `describe_from_url` and `describe_from_bytes`: fetch a linked file,
    decide from its headers whether the model may look at it, and ask the
    room's conversation to describe it. */
module Describe {
  import opened Text
  import opened Sessions
  import opened Effects

  datatype Option<T> = None | Some(value: T) {
    function GetOr(default: T): T {
      match this
      case Some(v) => v
      case None => default
    }
  }

  /** The image formats the vision model accepts. */
  const AcceptableFormats: seq<string> :=
    ["image/png", "image/jpg", "image/jpeg", "image/webp", "image/heic", "image/heif"]

  /** Assumed when a response has no content type. */
  const DefaultContentType: string := "image/jpeg"

  /** The prompt sent with the image bytes. */
  const DescribePrompt: string := "Describe this image with as much detail as possible in 1 to 2 sentences"

  /** The `content-length` header: missing, an integer, or text that `int()`
      rejects (its exception text). */
  datatype LengthHeader = NoLength | Declared(length: int) | Unparsable(error: string) {
    /** The declared length when it parses; a missing header counts as 0. */
    function Value(): int
      requires !Unparsable?
    {
      if Declared? then length else 0
    }
  }

  /** What the handler decides from a response's headers. */
  datatype Gate =
    | NotAnImage
    | TooLarge(length: int)
    | BadLength(error: string)
    | Accepted(mime: string)

  /** The header checks of `describe_from_url`, in the code's order: the
      content type first (defaulting to JPEG), then the declared length
      (defaulting to 0) against the configured maximum. */
  function FetchGate(contentType: Option<string>, length: LengthHeader, maxLen: int): (g: Gate)
    ensures g.NotAnImage? <==> contentType.GetOr(DefaultContentType) !in AcceptableFormats
    ensures g.Accepted? <==>
              && contentType.GetOr(DefaultContentType) in AcceptableFormats
              && !length.Unparsable?
              && length.Value() <= maxLen
    ensures g.Accepted? ==> g.mime == contentType.GetOr(DefaultContentType)
    ensures g.TooLarge? <==>
              contentType.GetOr(DefaultContentType) in AcceptableFormats
              && !length.Unparsable? && length.Value() > maxLen
    ensures g.TooLarge? ==> g.length == length.Value()
    ensures g.BadLength? <==> contentType.GetOr(DefaultContentType) in AcceptableFormats && length.Unparsable?
    ensures g.BadLength? ==> g.error == length.error
  {
    var mime := contentType.GetOr(DefaultContentType);
    if mime !in AcceptableFormats then NotAnImage
    else if length.Unparsable? then BadLength(length.error)
    else if length.Value() > maxLen then TooLarge(length.Value())
    else Accepted(mime)
  }

  /** A response without a content type is taken for a JPEG. */
  lemma MissingTypeIsJpeg(length: LengthHeader, maxLen: int)
    ensures FetchGate(None, length, maxLen) == FetchGate(Some("image/jpeg"), length, maxLen)
    ensures !FetchGate(None, length, maxLen).NotAnImage?
  {
  }

  /** A response without a length is treated as declaring 0 bytes. */
  lemma MissingLengthIsZero(contentType: Option<string>, maxLen: int)
    ensures FetchGate(contentType, NoLength, maxLen) == FetchGate(contentType, Declared(0), maxLen)
  {
  }

  const TooLargePrefix: string := "File too large ("

  /** The notice for a file above the size limit, naming both sizes in bytes. */
  function TooLargeText(length: int, maxLen: int): (t: string)
    ensures StartsWith(t, TooLargePrefix)
  {
    var rest := IntToString(length) + (" bytes > " + IntToString(maxLen) + " bytes)");
    assert (TooLargePrefix + rest)[..|TooLargePrefix|] == TooLargePrefix;
    TooLargePrefix + rest
  }

  /** The size in a too-large notice reads back as the declared length. */
  lemma TooLargeTextNamesLength(length: int, maxLen: int)
    ensures var t := TooLargeText(length, maxLen);
            var n := |IntToString(length)|;
            && t[16..16 + n] == IntToString(length)
            && ParseInt(t[16..16 + n]) == length
  {
    var digits := IntToString(length);
    MiddleSlice(TooLargePrefix, digits, " bytes > " + IntToString(maxLen) + " bytes)");
  }

  lemma MiddleSlice(a: string, b: string, c: string)
    ensures (a + (b + c))[|a|..|a| + |b|] == b
  {
    assert (a + (b + c))[|a|..] == b + c;
  }

  /** The notice for a failed fetch: the URL on the first line, the error
      text on the next. */
  function FetchErrorText(url: string, error: string): (t: string)
    ensures t != ""
  {
    "Error while attempting to fetch " + url + "\n" + error
  }

  /** What the web and the model give back for one URL: the request fails
      outright, or a response arrives with its headers, and then either
      reading the body fails or the model answers about it. */
  datatype UrlFetch =
    | Unreachable(error: string)
    | Response(contentType: Option<string>, length: LengthHeader, read: BodyRead)

  datatype BodyRead = ReadFailed(error: string) | Described(reply: ModelReply)

  /** The text `describe_from_url` returns, the registry after it, and the
      calls it makes; "" means there is nothing to send. */
  datatype Description = Description(reg: Registry, text: string, acts: seq<Action>)

  /** The text the handler gets back for a URL, outcome by outcome, in the
      order the checks run: an unreachable URL, a file that is not an accepted
      image (silence), a length that does not parse, a file too large, a body
      that cannot be read, and otherwise the model's description. */
  function DescriptionText(url: string, fetch: UrlFetch, maxLen: int): (text: string)
    ensures fetch.Unreachable? ==> text == FetchErrorText(url, fetch.error)
    ensures fetch.Response? ==>
              var g := FetchGate(fetch.contentType, fetch.length, maxLen);
              && (g.NotAnImage? ==> text == "")
              && (g.BadLength? ==> text == FetchErrorText(url, g.error))
              && (g.TooLarge? ==> text == TooLargeText(g.length, maxLen))
              && (g.Accepted? && fetch.read.ReadFailed? ==> text == FetchErrorText(url, fetch.read.error))
              && (g.Accepted? && fetch.read.Described? ==> text == ReplyText(fetch.read.reply))
    ensures text == "" <==>
              || (fetch.Response? && FetchGate(fetch.contentType, fetch.length, maxLen).NotAnImage?)
              || (&& fetch.Response?
                  && FetchGate(fetch.contentType, fetch.length, maxLen).Accepted?
                  && fetch.read.Described?
                  && ReplyText(fetch.read.reply) == "")
  {
    if fetch.Unreachable? then FetchErrorText(url, fetch.error)
    else
      var g := FetchGate(fetch.contentType, fetch.length, maxLen);
      if g.NotAnImage? then ""
      else if g.BadLength? then FetchErrorText(url, g.error)
      else if g.TooLarge? then TooLargeText(g.length, maxLen)
      else if fetch.read.ReadFailed? then FetchErrorText(url, fetch.read.error)
      else ReplyText(fetch.read.reply)
  }

  function DescribeUrl(reg: Registry, room: Room, url: string, fetch: UrlFetch, maxLen: int): (d: Description)
    ensures 1 <= |d.acts| <= 2
    ensures d.acts[0] == FetchUrl(url)
    ensures SameElsewhere(reg, d.reg, room) && Keeps(reg, d.reg, room)
    ensures Valid(reg) ==> Valid(d.reg)
    ensures AllInRoom(d.acts, room) && AsksUse(d.acts, d.reg, room)
    ensures |d.acts| == 2 <==> fetch.Response? && FetchGate(fetch.contentType, fetch.length, maxLen).Accepted? && fetch.read.Described?
    ensures |d.acts| == 1 ==> d.reg == reg
    ensures fetch.Unreachable? ==> d.text == FetchErrorText(url, fetch.error)
    ensures fetch.Response? ==>
              var g := FetchGate(fetch.contentType, fetch.length, maxLen);
              && (g.NotAnImage? ==> d.text == "")
              && (g.TooLarge? ==> d.text == TooLargeText(g.length, maxLen))
              && (g.BadLength? ==> d.text == FetchErrorText(url, g.error))
              && (g.Accepted? && fetch.read.ReadFailed? ==> d.text == FetchErrorText(url, fetch.read.error))
              && (g.Accepted? && fetch.read.Described? ==>
                    && d.text == ReplyText(fetch.read.reply)
                    && d.reg == GetOrCreate(reg, room).reg
                    && d.acts == [FetchUrl(url), AskImage(room, GetOrCreate(reg, room).handle, g.mime)])
    ensures d.text == DescriptionText(url, fetch, maxLen)
  {
    match fetch
    case Unreachable(e) => Description(reg, FetchErrorText(url, e), [FetchUrl(url)])
    case Response(contentType, length, read) =>
      match FetchGate(contentType, length, maxLen)
      case NotAnImage => Description(reg, "", [FetchUrl(url)])
      case TooLarge(n) => Description(reg, TooLargeText(n, maxLen), [FetchUrl(url)])
      case BadLength(e) => Description(reg, FetchErrorText(url, e), [FetchUrl(url)])
      case Accepted(mime) =>
        match read
        case ReadFailed(e) => Description(reg, FetchErrorText(url, e), [FetchUrl(url)])
        case Described(reply) =>
          var l := GetOrCreate(reg, room);
          Description(l.reg, ReplyText(reply), [FetchUrl(url), AskImage(room, l.handle, mime)])
  }

  /** Only a file whose type is not an accepted image stays silent; a
      too-large file or a failed fetch produces a message. Past the gate,
      silence means the model answered with an empty text. */
  lemma SilentIff(reg: Registry, room: Room, url: string, fetch: UrlFetch, maxLen: int)
    ensures DescribeUrl(reg, room, url, fetch, maxLen).text == "" <==>
              || (fetch.Response? && FetchGate(fetch.contentType, fetch.length, maxLen).NotAnImage?)
              || (&& fetch.Response?
                  && FetchGate(fetch.contentType, fetch.length, maxLen).Accepted?
                  && fetch.read.Described?
                  && ReplyText(fetch.read.reply) == "")
  {
  }
}

=== FILE: dispatch.dfy ===
/** How `muc_message` and `respond_text` decide what an incoming room
    message is: the bot's own echo, a command or a question addressed to the
    bot, an image-generation request, or none of these. */
module Dispatch {
  import opened Text
  import opened Sessions

  /** The settings the handler reads from `login.json`: the display name
      (which is also the room nick), the image model's name (also the
      trigger word) and `max_file_len` in MiB. */
  datatype Config = Config(nick: string, imageModel: string, maxFileMiB: int)

  /** The size limit for linked images in bytes: the configured number of
      MiB times 1024 * 1024. */
  function MaxFileLen(cfg: Config): int {
    cfg.maxFileMiB * 1024 * 1024
  }

  /** A groupchat message: the room's bare JID, the sender's nick (both
      `mucnick` and the resource of `from`) and the body. */
  datatype Message = Message(room: Room, sender: string, body: string)

  datatype ChatCommand = Forget | Help

  datatype Classified =
    | Echo
    | Command(command: ChatCommand)
    | Mention(text: string)
    | ImageRequest(prompt: string)
    | Passive

  /** Whether the body starts with the bot's nick, both sides lower-cased. */
  predicate Addressed(cfg: Config, body: string) {
    StartsWith(Lower(body), Lower(cfg.nick))
  }

  /** Whether the lower-cased body starts with the image model's name; the
      name itself is not lower-cased. */
  predicate Triggers(cfg: Config, body: string) {
    StartsWith(Lower(body), cfg.imageModel)
  }

  /** What follows the nick and a two-character separator such as ": ";
      empty when the body is no longer than those. */
  function KeyBody(cfg: Config, body: string): (k: string)
    ensures |body| <= |cfg.nick| + 2 ==> k == ""
    ensures |body| > |cfg.nick| + 2 ==> body == body[..|cfg.nick| + 2] + k
  {
    SliceFrom(body, |cfg.nick| + 2)
  }

  /** What follows the trigger word and one separator character. */
  function Prompt(cfg: Config, body: string): (p: string)
    ensures |body| <= |cfg.imageModel| + 1 ==> p == ""
    ensures |body| > |cfg.imageModel| + 1 ==> body == body[..|cfg.imageModel| + 1] + p
  {
    SliceFrom(body, |cfg.imageModel| + 1)
  }

  /** The branch the handler takes for a message. */
  function Classify(cfg: Config, msg: Message): (c: Classified)
    ensures c.Mention? ==> c.text == msg.body
    ensures c.ImageRequest? ==> c.prompt == Prompt(cfg, msg.body)
  {
    if msg.sender == cfg.nick then Echo
    else if Addressed(cfg, msg.body) then
      var key := KeyBody(cfg, msg.body);
      if StartsWith(key, "forget") then Command(Forget)
      else if StartsWith(key, "help") then Command(Help)
      else Mention(msg.body)
    else if Triggers(cfg, msg.body) then ImageRequest(Prompt(cfg, msg.body))
    else Passive
  }

  /** Only the bot's own messages are echoes, whatever they say. */
  lemma EchoIffOwnNick(cfg: Config, msg: Message)
    ensures Classify(cfg, msg) == Echo <==> msg.sender == cfg.nick
  {
  }

  /** A message addressed to the bot is a command or a question, never an
      image request, even when it also starts with the trigger word. */
  lemma AddressWinsOverTrigger(cfg: Config, msg: Message)
    requires msg.sender != cfg.nick
    requires Addressed(cfg, msg.body)
    ensures Classify(cfg, msg).Command? || Classify(cfg, msg).Mention?
  {
  }

  /** Both directions of the forget and help commands: the key body starts
      with the lower-case command word, case-sensitively, whatever follows. */
  lemma CommandIff(cfg: Config, msg: Message)
    ensures Classify(cfg, msg) == Command(Forget) <==>
              msg.sender != cfg.nick && Addressed(cfg, msg.body)
              && StartsWith(KeyBody(cfg, msg.body), "forget")
    ensures Classify(cfg, msg) == Command(Help) <==>
              msg.sender != cfg.nick && Addressed(cfg, msg.body)
              && !StartsWith(KeyBody(cfg, msg.body), "forget")
              && StartsWith(KeyBody(cfg, msg.body), "help")
  {
  }

  /** Both directions of the image trigger: not from the bot, not addressed
      to it, and the lower-cased body starts with the model name as written. */
  lemma ImageRequestIff(cfg: Config, msg: Message)
    ensures Classify(cfg, msg).ImageRequest? <==>
              msg.sender != cfg.nick && !Addressed(cfg, msg.body) && Triggers(cfg, msg.body)
  {
  }

  /** A message falls through to the URL scan alone exactly when it is
      neither the bot's own, nor addressed to the bot, nor an image request;
      a question is always addressed to the bot. */
  lemma PassiveIff(cfg: Config, msg: Message)
    ensures Classify(cfg, msg) == Passive <==>
              msg.sender != cfg.nick && !Addressed(cfg, msg.body) && !Triggers(cfg, msg.body)
    ensures Classify(cfg, msg).Mention? ==> msg.sender != cfg.nick && Addressed(cfg, msg.body)
  {
  }

  /** An addressed body too short to hold a command is a question: slicing
      past the end gives an empty key body rather than an error. */
  lemma ShortAddressedIsMention(cfg: Config, msg: Message)
    requires msg.sender != cfg.nick
    requires Addressed(cfg, msg.body)
    requires |msg.body| <= |cfg.nick| + 2
    ensures Classify(cfg, msg) == Mention(msg.body)
  {
  }

  /** A model name with an upper-case letter never triggers image generation,
      since it is compared with the lower-cased body. */
  lemma UpperCaseModelNeverTriggers(cfg: Config, msg: Message, i: nat)
    requires i < |cfg.imageModel| && IsUpper(cfg.imageModel[i])
    ensures !Classify(cfg, msg).ImageRequest?
  {
    if Triggers(cfg, msg.body) {
      LowerPrefixHasNoUpper(msg.body, cfg.imageModel, i);
    }
  }

  /** A concrete forget command: nick, separator, command word, then anything. */
  lemma ForgetExample()
    ensures Classify(Config("Bot", "flux", 10), Message("room@muc", "alice", "Bot: forget now"))
            == Command(Forget)
  {
    var body := "Bot: forget now";
    assert Lower(body)[..3] == "bot";
    assert KeyBody(Config("Bot", "flux", 10), body) == "forget now";
    assert "forget now"[..6] == "forget";
  }

  /** The nick is matched without regard to case; the command word is not. */
  lemma CaseExample()
    ensures Classify(Config("Bot", "flux", 10), Message("room@muc", "alice", "bot, Forget"))
            == Mention("bot, Forget")
  {
    var body := "bot, Forget";
    assert Lower(body)[..3] == "bot";
    assert Lower("Bot") == "bot";
    assert KeyBody(Config("Bot", "flux", 10), body) == "Forget";
    assert "Forget"[..6][0] != "forget"[0];
    assert "Forget"[..4][0] != "help"[0];
  }
}

=== FILE: effects.dfy ===
/** What the handler asks of the outside world, and what it gets back.
    Calls into the model, the upload service, the image generator and the
    web are recorded as actions in the order the handler makes them; their
    results are inputs to the model rather than computed by it. */
module Effects {
  import opened Sessions

  /** The outcome of an XEP-0363 upload: the link, or the text of the
      exception it raised. */
  datatype UploadResult = Uploaded(url: string) | UploadFailed(error: string)

  /** What the handler puts where a link is expected: the link, or the error
      text when the upload failed. */
  function UploadText(u: UploadResult): (t: string)
    ensures u.Uploaded? ==> t == u.url
    ensures u.UploadFailed? ==> t == u.error
  {
    match u
    case Uploaded(url) => url
    case UploadFailed(error) => error
  }

  /** The outcome of `chat.send_message`: the response text, or the text of
      the exception it raised. */
  datatype ModelReply = Answer(text: string) | ModelFailed(error: string)

  /** What the handler makes of a model call: the answer's text, or the error
      text when the call failed. */
  function ReplyText(m: ModelReply): (t: string)
    ensures m.Answer? ==> t == m.text
    ensures m.ModelFailed? ==> t == m.error
  {
    match m
    case Answer(text) => text
    case ModelFailed(error) => error
  }

  datatype Action =
      /** A text prompt sent on the room's conversation. */
    | AskText(room: Room, session: Handle, prompt: string)
      /** Image bytes of this type, with the request to describe them, sent
          on the room's conversation. */
    | AskImage(room: Room, session: Handle, mime: string)
      /** An XEP-0363 upload of a file with this name and content type. */
    | Upload(filename: string, mime: string)
      /** The request to the image generator with this prompt. */
    | GenerateImages(prompt: string)
      /** The HTTP GET of a URL found in the message. */
    | FetchUrl(url: string)
      /** An XEP-0461 reply in the room, with its fallback quote and body. */
    | SendReply(room: Room, quote: string, body: string)
      /** A room message whose body and out-of-band media link are `url`. */
    | SendMedia(room: Room, url: string)
      /** A plain room message. */
    | SendText(room: Room, body: string)

  predicate IsAsk(a: Action) {
    a.AskText? || a.AskImage?
  }

  predicate IsUpload(a: Action) {
    a.Upload?
  }

  predicate IsMedia(a: Action) {
    a.SendMedia?
  }

  predicate IsAskImage(a: Action) {
    a.AskImage?
  }

  predicate IsSendText(a: Action) {
    a.SendText?
  }

  predicate IsFetch(a: Action) {
    a.FetchUrl?
  }

  predicate IsGenerate(a: Action) {
    a.GenerateImages?
  }

  predicate IsSendReply(a: Action) {
    a.SendReply?
  }

  /** The room an action addresses, for the actions that address one. */
  predicate InRoom(a: Action, room: Room) {
    match a
    case AskText(r, _, _) => r == room
    case AskImage(r, _, _) => r == room
    case SendReply(r, _, _) => r == room
    case SendMedia(r, _) => r == room
    case SendText(r, _) => r == room
    case _ => true
  }

  predicate AllInRoom(acts: seq<Action>, room: Room) {
    forall i :: 0 <= i < |acts| ==> InRoom(acts[i], room)
  }

  /** Every model call in `acts` goes to `room`'s conversation as `reg` holds it. */
  predicate AsksUse(acts: seq<Action>, reg: Registry, room: Room) {
    forall i :: 0 <= i < |acts| && IsAsk(acts[i]) ==>
      room in reg.sessions && acts[i].session == reg.sessions[room]
  }

  /** The elements of `xs` that satisfy `keep`, in order. */
  function Filter<T>(xs: seq<T>, keep: T -> bool): (ys: seq<T>)
    ensures |ys| <= |xs|
  {
    if xs == [] then []
    else (if keep(xs[0]) then [xs[0]] else []) + Filter(xs[1..], keep)
  }

  lemma {:induction false} FilterAppend<T>(a: seq<T>, b: seq<T>, keep: T -> bool)
    ensures Filter(a + b, keep) == Filter(a, keep) + Filter(b, keep)
    decreases |a|
  {
    if a == [] {
      assert a + b == b;
    } else {
      var x := a[0];
      assert a == [x] + a[1..];
      assert a + b == [x] + (a[1..] + b);
      FilterAppend(a[1..], b, keep);
      FilterCons(x, a[1..] + b, keep);
      FilterCons(x, a[1..], keep);
    }
  }

  lemma FilterCons<T>(x: T, xs: seq<T>, keep: T -> bool)
    ensures Filter([x] + xs, keep) == (if keep(x) then [x] else []) + Filter(xs, keep)
  {
    assert ([x] + xs)[0] == x;
    assert ([x] + xs)[1..] == xs;
  }

  lemma FilterThree<T>(x: T, y: T, z: T, tail: seq<T>, keep: T -> bool)
    ensures Filter([x, y, z] + tail, keep)
            == (if keep(x) then [x] else []) + (if keep(y) then [y] else [])
               + (if keep(z) then [z] else []) + Filter(tail, keep)
  {
    assert [x, y, z] + tail == [x] + ([y] + ([z] + tail));
    FilterCons(x, [y] + ([z] + tail), keep);
    FilterCons(y, [z] + tail, keep);
    FilterCons(z, tail, keep);
  }

  lemma {:induction false} FilterNone<T>(xs: seq<T>, keep: T -> bool)
    requires forall i :: 0 <= i < |xs| ==> !keep(xs[i])
    ensures Filter(xs, keep) == []
    decreases |xs|
  {
    if xs != [] {
      FilterNone(xs[1..], keep);
    }
  }

  /** `n` copies of `x`. */
  function Repeat<T>(x: T, n: nat): (ys: seq<T>)
    ensures |ys| == n
    ensures forall i :: 0 <= i < n ==> ys[i] == x
  {
    if n == 0 then [] else [x] + Repeat(x, n - 1)
  }

  /** One fetch per URL, in the order given. */
  function Fetches(urls: seq<string>): (acts: seq<Action>)
    ensures |acts| == |urls|
    ensures forall i :: 0 <= i < |urls| ==> acts[i] == FetchUrl(urls[i])
  {
    if urls == [] then [] else [FetchUrl(urls[0])] + Fetches(urls[1..])
  }

  lemma AllInRoomAppend(a: seq<Action>, b: seq<Action>, room: Room)
    requires AllInRoom(a, room) && AllInRoom(b, room)
    ensures AllInRoom(a + b, room)
  {
    forall i | 0 <= i < |a + b| ensures InRoom((a + b)[i], room) {
      if i >= |a| {
        assert (a + b)[i] == b[i - |a|];
      }
    }
  }

  /** Model calls recorded earlier keep pointing at the room's conversation
      while later steps keep that conversation. */
  lemma AsksUseAppend(a: seq<Action>, b: seq<Action>, mid: Registry, last: Registry, room: Room)
    requires AsksUse(a, mid, room) && Keeps(mid, last, room) && AsksUse(b, last, room)
    ensures AsksUse(a + b, last, room)
  {
    forall i | 0 <= i < |a + b| && IsAsk((a + b)[i])
      ensures room in last.sessions && (a + b)[i].session == last.sessions[room]
    {
      if i >= |a| {
        assert (a + b)[i] == b[i - |a|];
      } else {
        assert (a + b)[i] == a[i];
      }
    }
  }

  /** The registry and the actions after one stage of the handler. */
  datatype Step = Step(reg: Registry, acts: seq<Action>)
}

=== FILE: images.dfy ===
/** The image-generation branch of `muc_message`: for every image the
    generator yields, in order, upload it, post its link as out-of-band
    media, ask the room's conversation to describe it and post the
    description when there is one. */
module Images {
  import opened Text
  import opened Sessions
  import opened Effects
  import opened Replies

  /** One image the generator yielded, with what uploading it and describing
      it gave back. */
  datatype GeneratedImage = GeneratedImage(upload: UploadResult, description: ModelReply)

  const ImageName: string := "generated.jpeg"
  const ImageType: string := "image/jpeg"

  /** Whether an image gets a follow-up message: its description is not empty. */
  predicate HasDescription(img: GeneratedImage) {
    ReplyText(img.description) != ""
  }

  /** One media message per image, carrying its link or upload error, in order. */
  function MediaMessages(room: Room, images: seq<GeneratedImage>): (acts: seq<Action>)
    ensures |acts| == |images|
    ensures forall i :: 0 <= i < |images| ==> acts[i] == SendMedia(room, UploadText(images[i].upload))
  {
    if images == [] then []
    else [SendMedia(room, UploadText(images[0].upload))] + MediaMessages(room, images[1..])
  }

  /** One follow-up per image with a non-empty description, in order: the
      image's link or upload error quoted, then the description. */
  function FollowUps(room: Room, images: seq<GeneratedImage>): (acts: seq<Action>)
    ensures |acts| == |Filter(images, HasDescription)| <= |images|
    ensures forall i :: 0 <= i < |acts| ==> acts[i].SendText? && acts[i].room == room
  {
    if images == [] then []
    else
      var img := images[0];
      (if HasDescription(img) then [SendText(room, FollowUp(UploadText(img.upload), ReplyText(img.description)))] else [])
      + FollowUps(room, images[1..])
  }

  /** The calls and messages for one image, using conversation `h`. */
  function ImageActions(room: Room, h: Handle, img: GeneratedImage): (acts: seq<Action>)
    ensures |acts| == 3 || |acts| == 4
    ensures acts[..3] == [Upload(ImageName, ImageType), SendMedia(room, UploadText(img.upload)), AskImage(room, h, ImageType)]
    ensures |acts| == 4 <==> HasDescription(img)
    ensures |acts| == 4 ==> acts[3] == SendText(room, FollowUp(UploadText(img.upload), ReplyText(img.description)))
  {
    var url := UploadText(img.upload);
    var desc := ReplyText(img.description);
    [Upload(ImageName, ImageType), SendMedia(room, url), AskImage(room, h, ImageType)]
    + (if desc != "" then [SendText(room, FollowUp(url, desc))] else [])
  }

  /** The `async for` loop over the generated images. Each description goes
      through `describe_from_bytes`, which looks the room's conversation up
      and creates it when missing. */
  function ImageLoop(reg: Registry, room: Room, images: seq<GeneratedImage>): (s: Step)
    ensures SameElsewhere(reg, s.reg, room) && Keeps(reg, s.reg, room)
    ensures Valid(reg) ==> Valid(s.reg)
    decreases |images|
  {
    if images == [] then Step(reg, [])
    else
      var l := GetOrCreate(reg, room);
      var rest := ImageLoop(l.reg, room, images[1..]);
      SameElsewhereTrans(reg, l.reg, rest.reg, room);
      Step(rest.reg, ImageActions(room, l.handle, images[0]) + rest.acts)
  }

  /** One iteration of the loop: the first image's actions on the room's
      conversation, then the rest of the loop on the registry after the lookup. */
  lemma ImageLoopStep(reg: Registry, room: Room, images: seq<GeneratedImage>)
    requires images != []
    ensures ImageLoop(reg, room, images).acts
            == ImageActions(room, GetOrCreate(reg, room).handle, images[0])
               + ImageLoop(GetOrCreate(reg, room).reg, room, images[1..]).acts
  {
  }

  /** The loop leaves the registry as one lookup of the room would: unchanged
      when no image came, otherwise holding the room's conversation. */
  lemma {:induction false} ImageLoopRegistry(reg: Registry, room: Room, images: seq<GeneratedImage>)
    ensures images == [] ==> ImageLoop(reg, room, images).reg == reg
    ensures images != [] ==> ImageLoop(reg, room, images).reg == GetOrCreate(reg, room).reg
    decreases |images|
  {
    if images != [] {
      var l := GetOrCreate(reg, room);
      ImageLoopRegistry(l.reg, room, images[1..]);
      GetOrCreateIdempotent(reg, room);
    }
  }

  /** What each kind of action amounts to within one image's actions. */
  lemma FilterImageActions(room: Room, h: Handle, img: GeneratedImage)
    ensures Filter(ImageActions(room, h, img), IsUpload) == [Upload(ImageName, ImageType)]
    ensures Filter(ImageActions(room, h, img), IsMedia) == [SendMedia(room, UploadText(img.upload))]
    ensures Filter(ImageActions(room, h, img), IsAskImage) == [AskImage(room, h, ImageType)]
    ensures Filter(ImageActions(room, h, img), IsSendText)
            == if HasDescription(img) then [SendText(room, FollowUp(UploadText(img.upload), ReplyText(img.description)))] else []
    ensures Filter(ImageActions(room, h, img), IsFetch) == []
    ensures Filter(ImageActions(room, h, img), IsGenerate) == []
  {
    var url := UploadText(img.upload);
    var desc := ReplyText(img.description);
    var x, y, z := Upload(ImageName, ImageType), SendMedia(room, url), AskImage(room, h, ImageType);
    var tail := if desc != "" then [SendText(room, FollowUp(url, desc))] else [];
    assert ImageActions(room, h, img) == [x, y, z] + tail;
    FilterThree(x, y, z, tail, IsUpload);
    FilterThree(x, y, z, tail, IsMedia);
    FilterThree(x, y, z, tail, IsAskImage);
    FilterThree(x, y, z, tail, IsSendText);
    FilterThree(x, y, z, tail, IsFetch);
    FilterThree(x, y, z, tail, IsGenerate);
    if desc != "" {
      FilterCons(tail[0], [], IsFetch);
      FilterCons(tail[0], [], IsGenerate);
      FilterCons(tail[0], [], IsUpload);
      FilterCons(tail[0], [], IsMedia);
      FilterCons(tail[0], [], IsAskImage);
      FilterCons(tail[0], [], IsSendText);
      assert tail == [tail[0]] + [];
    }
  }

  /** One upload per image, in blob order. */
  lemma {:induction false} ImageLoopUploads(reg: Registry, room: Room, images: seq<GeneratedImage>)
    ensures Filter(ImageLoop(reg, room, images).acts, IsUpload)
            == Repeat(Upload(ImageName, ImageType), |images|)
    decreases |images|
  {
    if images != [] {
      var l := GetOrCreate(reg, room);
      ImageLoopUploads(l.reg, room, images[1..]);
      FilterAppend(ImageActions(room, l.handle, images[0]), ImageLoop(l.reg, room, images[1..]).acts, IsUpload);
      FilterImageActions(room, l.handle, images[0]);
    }
  }

  /** One media message per image, carrying that image's link or upload
      error, in blob order. */
  lemma {:induction false} ImageLoopMedia(reg: Registry, room: Room, images: seq<GeneratedImage>)
    ensures Filter(ImageLoop(reg, room, images).acts, IsMedia)
            == MediaMessages(room, images)
    decreases |images|
  {
    if images != [] {
      var l := GetOrCreate(reg, room);
      var rest := ImageLoop(l.reg, room, images[1..]);
      ImageLoopMedia(l.reg, room, images[1..]);
      ImageLoopStep(reg, room, images);
      FilterAppend(ImageActions(room, l.handle, images[0]), rest.acts, IsMedia);
      FilterImageActions(room, l.handle, images[0]);
    }
  }

  /** One description request per image, all on the room's conversation as
      the first lookup found or created it. */
  lemma {:induction false} ImageLoopAsks(reg: Registry, room: Room, images: seq<GeneratedImage>)
    ensures Filter(ImageLoop(reg, room, images).acts, IsAskImage)
            == Repeat(AskImage(room, GetOrCreate(reg, room).handle, ImageType), |images|)
    decreases |images|
  {
    if images != [] {
      var l := GetOrCreate(reg, room);
      var ask := AskImage(room, l.handle, ImageType);
      var rest := ImageLoop(l.reg, room, images[1..]);
      ImageLoopAsks(l.reg, room, images[1..]);
      GetOrCreateIdempotent(reg, room);
      FilterAppend(ImageActions(room, l.handle, images[0]), rest.acts, IsAskImage);
      FilterImageActions(room, l.handle, images[0]);
      assert Filter(ImageLoop(reg, room, images).acts, IsAskImage) == [ask] + Filter(rest.acts, IsAskImage);
    }
  }

  /** The image loop fetches no URL. */
  lemma {:induction false} ImageLoopFetchesNothing(reg: Registry, room: Room, images: seq<GeneratedImage>)
    ensures Filter(ImageLoop(reg, room, images).acts, IsFetch) == []
    decreases |images|
  {
    if images != [] {
      var l := GetOrCreate(reg, room);
      ImageLoopFetchesNothing(l.reg, room, images[1..]);
      FilterAppend(ImageActions(room, l.handle, images[0]), ImageLoop(l.reg, room, images[1..]).acts, IsFetch);
      FilterImageActions(room, l.handle, images[0]);
    }
  }

  /** The image loop makes no further request to the generator. */
  lemma {:induction false} ImageLoopGeneratesNothing(reg: Registry, room: Room, images: seq<GeneratedImage>)
    ensures Filter(ImageLoop(reg, room, images).acts, IsGenerate) == []
    decreases |images|
  {
    if images != [] {
      var l := GetOrCreate(reg, room);
      ImageLoopGeneratesNothing(l.reg, room, images[1..]);
      FilterAppend(ImageActions(room, l.handle, images[0]), ImageLoop(l.reg, room, images[1..]).acts, IsGenerate);
      FilterImageActions(room, l.handle, images[0]);
    }
  }

  /** A follow-up exactly for each image with a non-empty description, in
      blob order, so never more follow-ups than images. */
  lemma {:induction false} ImageLoopFollowUps(reg: Registry, room: Room, images: seq<GeneratedImage>)
    ensures Filter(ImageLoop(reg, room, images).acts, IsSendText) == FollowUps(room, images)
    decreases |images|
  {
    if images != [] {
      var l := GetOrCreate(reg, room);
      ImageLoopFollowUps(l.reg, room, images[1..]);
      FilterAppend(ImageActions(room, l.handle, images[0]), ImageLoop(l.reg, room, images[1..]).acts, IsSendText);
      FilterImageActions(room, l.handle, images[0]);
    }
  }

  lemma ImageActionsStayInRoom(reg: Registry, room: Room, h: Handle, img: GeneratedImage)
    requires room in reg.sessions && reg.sessions[room] == h
    ensures AllInRoom(ImageActions(room, h, img), room)
    ensures AsksUse(ImageActions(room, h, img), reg, room)
  {
    var a := ImageActions(room, h, img);
    assert forall i :: 0 <= i < |a| ==> InRoom(a[i], room) && (IsAsk(a[i]) ==> a[i].session == h) by {
      assert a[0].Upload? && a[1].SendMedia? && a[2] == AskImage(room, h, ImageType);
      assert |a| == 4 ==> a[3].SendText? && a[3].room == room;
    }
  }

  /** Every message and model call of the loop concerns the room, and every
      model call uses the conversation the registry holds for it afterwards. */
  lemma {:induction false} ImageLoopStaysInRoom(reg: Registry, room: Room, images: seq<GeneratedImage>)
    ensures AllInRoom(ImageLoop(reg, room, images).acts, room)
    ensures AsksUse(ImageLoop(reg, room, images).acts, ImageLoop(reg, room, images).reg, room)
    decreases |images|
  {
    if images != [] {
      var l := GetOrCreate(reg, room);
      var a := ImageActions(room, l.handle, images[0]);
      var rest := ImageLoop(l.reg, room, images[1..]);
      ImageLoopStaysInRoom(l.reg, room, images[1..]);
      ImageActionsStayInRoom(l.reg, room, l.handle, images[0]);
      AllInRoomAppend(a, rest.acts, room);
      AsksUseAppend(a, rest.acts, l.reg, rest.reg, room);
    }
  }
}

=== FILE: pipeline.dfy ===
/** `muc_message`: one incoming room message, from the echo check through
    the branch it selects to the scan of the URLs in its body. */
module Pipeline {
  import opened Text
  import opened Sessions
  import opened Effects
  import opened Replies
  import opened Dispatch
  import opened Urls
  import opened Describe
  import opened Images

  /** What the outside world answers while one message is handled: the
      model's answer to a question, the upload of a long answer's page, the
      images the generator yields with their outcomes, and what fetching and
      describing each URL gives. */
  datatype World = World(
    chat: ModelReply,
    page: UploadResult,
    images: seq<GeneratedImage>,
    fetch: string -> UrlFetch)

  /** `Aborted` is the zero-image path: building the failure notice calls
      `.join` on a list, which raises, so the handler stops there. */
  datatype Status = Completed | Aborted

  datatype Outcome = Outcome(reg: Registry, acts: seq<Action>, status: Status)

  /** What `respond_text` returns, the registry after it and its model call. */
  datatype Reply = Reply(reg: Registry, text: string, acts: seq<Action>)

  /** `respond_text` for a message addressed to the bot. */
  function Respond(reg: Registry, room: Room, c: Classified, chat: ModelReply): (r: Reply)
    requires c.Command? || c.Mention?
    ensures c == Command(Forget) ==> r.text == ForgetText && room !in r.reg.sessions
    ensures c == Command(Help) ==> r.text == HelpText && r.reg == reg
    ensures c.Command? <==> r.acts == []
    ensures c.Mention? ==> room in r.reg.sessions
    ensures c.Mention? ==> r.acts == [AskText(room, r.reg.sessions[room], c.text)]
    ensures c.Mention? ==> r.text == ReplyText(chat)
    ensures c.Mention? ==> Keeps(reg, r.reg, room) && r.reg == GetOrCreate(reg, room).reg
    ensures SameElsewhere(reg, r.reg, room)
    ensures Valid(reg) ==> Valid(r.reg)
  {
    match c
    case Command(Forget) => Reply(Sessions.Forget(reg, room), ForgetText, [])
    case Command(Help) => Reply(reg, HelpText, [])
    case Mention(text) =>
      var l := GetOrCreate(reg, room);
      Reply(l.reg, ReplyText(chat), [AskText(room, l.handle, text)])
  }

  /** The rest of the mention branch: the oversize fallback uploads the
      rendered page, then the reply goes out with the quote of the message. */
  function ReplyActions(msg: Message, text: string, page: UploadResult): (acts: seq<Action>)
    ensures |acts| == if Oversized(text) then 2 else 1
    ensures Oversized(text) ==> acts[0] == Upload(PageName, PageType)
    ensures acts[|acts| - 1] == SendReply(msg.room, Quote(msg.sender, msg.body), Finalize(text, page))
  {
    (if Oversized(text) then [Upload(PageName, PageType)] else [])
    + [SendReply(msg.room, Quote(msg.sender, msg.body), Finalize(text, page))]
  }

  /** The branch selected by the classification, before the URL scan: the
      reply to a command or a question, or the generator request followed by
      the image loop. No branch fetches a URL; each keeps to the message's
      room and the conversation the registry holds for it. */
  function Branch(msg: Message, reg: Registry, world: World, c: Classified): (s: Step)
    requires !c.Echo?
    ensures SameElsewhere(reg, s.reg, msg.room)
    ensures Valid(reg) ==> Valid(s.reg)
    ensures AllInRoom(s.acts, msg.room) && AsksUse(s.acts, s.reg, msg.room)
    ensures Filter(s.acts, IsFetch) == []
    ensures c.ImageRequest? ==> |s.acts| >= 1 && s.acts[0] == GenerateImages(c.prompt)
    ensures c.Passive? ==> s == Step(reg, [])
  {
    match c
    case Command(_) | Mention(_) =>
      var r := Respond(reg, msg.room, c, world.chat);
      AddressedActions(msg, reg, c, world.chat, world.page);
      Step(r.reg, r.acts + ReplyActions(msg, r.text, world.page))
    case ImageRequest(prompt) =>
      var loop := ImageLoop(reg, msg.room, world.images);
      GeneratorThenLoop(reg, msg.room, prompt, world.images);
      Step(loop.reg, [GenerateImages(prompt)] + loop.acts)
    case Passive => Step(reg, [])
  }

  /** The model call and the reply to a command or a question stay in the
      message's room and fetch nothing. */
  lemma AddressedActions(msg: Message, reg: Registry, c: Classified, chat: ModelReply, page: UploadResult)
    requires c.Command? || c.Mention?
    ensures var r := Respond(reg, msg.room, c, chat);
            var acts := r.acts + ReplyActions(msg, r.text, page);
            && AllInRoom(acts, msg.room)
            && AsksUse(acts, r.reg, msg.room)
            && Filter(acts, IsFetch) == []
  {
    var r := Respond(reg, msg.room, c, chat);
    var tail := ReplyActions(msg, r.text, page);
    assert forall i :: 0 <= i < |tail| ==> tail[i].Upload? || (tail[i].SendReply? && tail[i].room == msg.room);
    AskThenReply(r.acts, tail, r.reg, msg.room);
  }

  lemma AskThenReply(ask: seq<Action>, tail: seq<Action>, reg: Registry, room: Room)
    requires forall i :: 0 <= i < |ask| ==> ask[i].AskText? && ask[i].room == room && room in reg.sessions && ask[i].session == reg.sessions[room]
    requires forall i :: 0 <= i < |tail| ==> tail[i].Upload? || (tail[i].SendReply? && tail[i].room == room)
    ensures AllInRoom(ask + tail, room) && AsksUse(ask + tail, reg, room)
    ensures Filter(ask + tail, IsFetch) == []
  {
    var acts := ask + tail;
    assert forall i :: |ask| <= i < |acts| ==> acts[i] == tail[i - |ask|];
    FilterNone(acts, IsFetch);
  }

  /** The generator request followed by the image loop stays in the room and
      fetches nothing. */
  lemma GeneratorThenLoop(reg: Registry, room: Room, prompt: string, images: seq<GeneratedImage>)
    ensures var loop := ImageLoop(reg, room, images);
            var acts := [GenerateImages(prompt)] + loop.acts;
            && AllInRoom(acts, room)
            && AsksUse(acts, loop.reg, room)
            && Filter(acts, IsFetch) == []
  {
    var loop := ImageLoop(reg, room, images);
    ImageLoopStaysInRoom(reg, room, images);
    ImageLoopFetchesNothing(reg, room, images);
    AllInRoomAppend([GenerateImages(prompt)], loop.acts, room);
    AsksUseAppend([GenerateImages(prompt)], loop.acts, loop.reg, loop.reg, room);
    FilterCons(GenerateImages(prompt), loop.acts, IsFetch);
  }

  /** The reply that follows a URL's description: one, quoting the URL, when
      the text is not empty; none otherwise. */
  function ReplyFor(room: Room, url: string, text: string): (r: seq<Action>)
    ensures |r| <= 1
    ensures |r| == 1 <==> text != ""
    ensures forall i :: 0 <= i < |r| ==> r[i] == SendReply(room, url, text)
  {
    if text != "" then [SendReply(room, url, text)] else []
  }

  lemma ReplyForFilters(room: Room, url: string, text: string)
    ensures Filter(ReplyFor(room, url, text), IsSendReply) == ReplyFor(room, url, text)
    ensures Filter(ReplyFor(room, url, text), IsFetch) == []
  {
    if text != "" {
      FilterCons(SendReply(room, url, text), [], IsSendReply);
      FilterCons(SendReply(room, url, text), [], IsFetch);
      assert [SendReply(room, url, text)] + [] == ReplyFor(room, url, text);
    }
  }

  /** The actions of one URL, from what describing it gave: the fetch, at
      most one model call, then the reply when there is text. */
  lemma ReplyAfterDescription(acts: seq<Action>, room: Room, url: string, text: string)
    requires 1 <= |acts| <= 2 && acts[0] == FetchUrl(url)
    requires |acts| == 2 ==> acts[1].AskImage?
    ensures var all := acts + ReplyFor(room, url, text);
            && Filter(all, IsFetch) == [FetchUrl(url)]
            && Filter(all, IsSendReply) == ReplyFor(room, url, text)
            && (forall a :: a in all ==> a.FetchUrl? || a.AskImage? || a.SendReply?)
            && (|acts| == 2 ==> all[1] == acts[1])
  {
    var tail := ReplyFor(room, url, text);
    var all := acts + tail;
    var more := acts[1..];
    assert acts == [FetchUrl(url)] + more;
    assert forall i :: 0 <= i < |more| ==> more[i].AskImage?;
    assert forall i :: |acts| <= i < |all| ==> all[i] == tail[i - |acts|];
    FilterNone(more, IsFetch);
    FilterNone(more, IsSendReply);
    FilterCons(FetchUrl(url), more, IsFetch);
    FilterCons(FetchUrl(url), more, IsSendReply);
    ReplyForFilters(room, url, text);
    FilterAppend(acts, tail, IsFetch);
    FilterAppend(acts, tail, IsSendReply);
  }

  /** One iteration of the URL scan: the URL is fetched once, its model call
      is made when the image was accepted, and the reply carries exactly the
      text the fetch outcome gives, when there is any. */
  function UrlStep(reg: Registry, room: Room, url: string, fetch: UrlFetch, maxLen: int): (s: Step)
    ensures Filter(s.acts, IsFetch) == [FetchUrl(url)]
    ensures Filter(s.acts, IsSendReply) == ReplyFor(room, url, DescriptionText(url, fetch, maxLen))
    ensures forall a :: a in s.acts ==> a.FetchUrl? || a.AskImage? || a.SendReply?
    ensures SameElsewhere(reg, s.reg, room) && Keeps(reg, s.reg, room)
    ensures Valid(reg) ==> Valid(s.reg)
    ensures AllInRoom(s.acts, room) && AsksUse(s.acts, s.reg, room)
    ensures room in s.reg.sessions && room !in reg.sessions ==> |s.acts| >= 2 && s.acts[1].AskImage?
  {
    var d := DescribeUrl(reg, room, url, fetch, maxLen);
    var tail := ReplyFor(room, url, d.text);
    ReplyAfterDescription(d.acts, room, url, d.text);
    assert AllInRoom(tail, room) && AsksUse(tail, d.reg, room);
    AllInRoomAppend(d.acts, tail, room);
    AsksUseAppend(d.acts, tail, d.reg, d.reg, room);
    Step(d.reg, d.acts + tail)
  }

  /** The loop over the extracted URLs: describe each one and reply with the
      description when it is not empty. */
  function UrlScan(reg: Registry, room: Room, urls: seq<string>, fetch: string -> UrlFetch, maxLen: int): (s: Step)
    ensures SameElsewhere(reg, s.reg, room) && Keeps(reg, s.reg, room)
    ensures Valid(reg) ==> Valid(s.reg)
    ensures AllInRoom(s.acts, room) && AsksUse(s.acts, s.reg, room)
    decreases |urls|
  {
    if urls == [] then Step(reg, [])
    else
      var here := UrlStep(reg, room, urls[0], fetch(urls[0]), maxLen);
      var rest := UrlScan(here.reg, room, urls[1..], fetch, maxLen);
      SameElsewhereTrans(reg, here.reg, rest.reg, room);
      AllInRoomAppend(here.acts, rest.acts, room);
      AsksUseAppend(here.acts, rest.acts, here.reg, rest.reg, room);
      Step(rest.reg, here.acts + rest.acts)
  }

  /** The replies the URL scan sends, from the URLs and their fetch outcomes
      alone: one reply quoting each URL whose outcome gives text, in order. */
  function ScanReplies(room: Room, urls: seq<string>, fetch: string -> UrlFetch, maxLen: int): (r: seq<Action>)
    ensures |r| <= |urls|
    ensures forall i :: 0 <= i < |r| ==> r[i].SendReply? && r[i].room == room && r[i].body != "" && r[i].quote in urls
    decreases |urls|
  {
    if urls == [] then []
    else
      var rest := ScanReplies(room, urls[1..], fetch, maxLen);
      var text := DescriptionText(urls[0], fetch(urls[0]), maxLen);
      var here := ReplyFor(room, urls[0], text);
      RepliesPrepend(here, rest, room, urls, text);
      here + rest
  }

  lemma RepliesPrepend(here: seq<Action>, rest: seq<Action>, room: Room, urls: seq<string>, text: string)
    requires urls != []
    requires here == ReplyFor(room, urls[0], text)
    requires forall i :: 0 <= i < |rest| ==> rest[i].SendReply? && rest[i].room == room && rest[i].body != "" && rest[i].quote in urls[1..]
    ensures forall i :: 0 <= i < |here + rest| ==>
              var a := (here + rest)[i];
              a.SendReply? && a.room == room && a.body != "" && a.quote in urls
  {
    forall i | 0 <= i < |here + rest|
      ensures var a := (here + rest)[i]; a.SendReply? && a.room == room && a.body != "" && a.quote in urls
    {
      if i < |here| {
        assert (here + rest)[i] == SendReply(room, urls[0], text);
      } else {
        assert (here + rest)[i] == rest[i - |here|];
        assert rest[i - |here|].quote in urls[1..];
      }
    }
  }

  /** The whole handler for one message. Whatever the branch, the other
      rooms' conversations are left as they were, distinct rooms keep
      distinct conversations, every message goes to the message's room, and
      every model call uses the conversation the registry holds for that room
      afterwards. */
  function HandleMessage(cfg: Config, msg: Message, reg: Registry, world: World): (out: Outcome)
    ensures Valid(reg) ==> Valid(out.reg)
    ensures SameElsewhere(reg, out.reg, msg.room)
    ensures AllInRoom(out.acts, msg.room) && AsksUse(out.acts, out.reg, msg.room)
  {
    var c := Classify(cfg, msg);
    if c.Echo? then Outcome(reg, [], Completed)
    else
      var b := Branch(msg, reg, world, c);
      if c.ImageRequest? && world.images == [] then Outcome(b.reg, b.acts, Aborted)
      else
        var scan := UrlScan(b.reg, msg.room, ExtractUrls(msg.body), world.fetch, MaxFileLen(cfg));
        SameElsewhereTrans(reg, b.reg, scan.reg, msg.room);
        AllInRoomAppend(b.acts, scan.acts, msg.room);
        AsksUseAppend(b.acts, scan.acts, b.reg, scan.reg, msg.room);
        Outcome(scan.reg, b.acts + scan.acts, Completed)
  }

  // ---------------------------------------------------------------------
  // Properties of the URL scan

  /** One fetch per extracted URL, in order, each URL once; a failure for
      one URL does not keep the others from being fetched. */
  lemma {:induction false} UrlScanFetchesEach(reg: Registry, room: Room, urls: seq<string>,
                                               fetch: string -> UrlFetch, maxLen: int)
    ensures Filter(UrlScan(reg, room, urls, fetch, maxLen).acts, IsFetch)
            == Fetches(urls)
    decreases |urls|
  {
    if urls != [] {
      var here := UrlStep(reg, room, urls[0], fetch(urls[0]), maxLen);
      var rest := UrlScan(here.reg, room, urls[1..], fetch, maxLen);
      UrlScanFetchesEach(here.reg, room, urls[1..], fetch, maxLen);
      FilterAppend(here.acts, rest.acts, IsFetch);
    }
  }

  /** The replies of the scan are exactly the reference replies: one per URL
      whose outcome gives text, quoting that URL and carrying that text, in
      order; what the registry holds plays no part in them. */
  lemma {:induction false} UrlScanReplies(reg: Registry, room: Room, urls: seq<string>,
                                           fetch: string -> UrlFetch, maxLen: int)
    ensures Filter(UrlScan(reg, room, urls, fetch, maxLen).acts, IsSendReply)
            == ScanReplies(room, urls, fetch, maxLen)
    decreases |urls|
  {
    if urls != [] {
      var here := UrlStep(reg, room, urls[0], fetch(urls[0]), maxLen);
      var rest := UrlScan(here.reg, room, urls[1..], fetch, maxLen);
      UrlScanReplies(here.reg, room, urls[1..], fetch, maxLen);
      FilterAppend(here.acts, rest.acts, IsSendReply);
    }
  }

  /** The scan neither uploads nor posts media, nor asks the generator, nor
      sends the text of a message to the model. */
  lemma {:induction false} UrlScanOnlyDescribes(reg: Registry, room: Room, urls: seq<string>,
                                                 fetch: string -> UrlFetch, maxLen: int)
    ensures forall a :: a in UrlScan(reg, room, urls, fetch, maxLen).acts ==>
              a.FetchUrl? || a.AskImage? || a.SendReply?
    decreases |urls|
  {
    if urls != [] {
      var here := UrlStep(reg, room, urls[0], fetch(urls[0]), maxLen);
      var rest := UrlScan(here.reg, room, urls[1..], fetch, maxLen);
      UrlScanOnlyDescribes(here.reg, room, urls[1..], fetch, maxLen);
      assert UrlScan(reg, room, urls, fetch, maxLen).acts == here.acts + rest.acts;
    }
  }

  /** The scan creates the room's conversation only when it asks the model
      about a linked image. */
  lemma {:induction false} UrlScanCreatesOnlyWhenAsking(reg: Registry, room: Room, urls: seq<string>,
                                                         fetch: string -> UrlFetch, maxLen: int)
    ensures var s := UrlScan(reg, room, urls, fetch, maxLen);
            room in s.reg.sessions ==> room in reg.sessions || exists a :: a in s.acts && a.AskImage?
    decreases |urls|
  {
    if urls != [] {
      var here := UrlStep(reg, room, urls[0], fetch(urls[0]), maxLen);
      var s := UrlScan(reg, room, urls, fetch, maxLen);
      var rest := UrlScan(here.reg, room, urls[1..], fetch, maxLen);
      UrlScanCreatesOnlyWhenAsking(here.reg, room, urls[1..], fetch, maxLen);
      assert s.acts == here.acts + rest.acts;
      if room in s.reg.sessions && room !in reg.sessions {
        if room in here.reg.sessions {
          assert s.acts[1] == here.acts[1];
        } else {
          var a :| a in rest.acts && a.AskImage?;
          assert a in s.acts;
        }
      }
    }
  }

  // ---------------------------------------------------------------------
  // Properties of the handler

  /** The bot's own messages are ignored entirely: nothing is sent, nothing
      is fetched, the registry is untouched. */
  lemma EchoDoesNothing(cfg: Config, msg: Message, reg: Registry, world: World)
    requires msg.sender == cfg.nick
    ensures HandleMessage(cfg, msg, reg, world) == Outcome(reg, [], Completed)
  {
  }

  /** The handler stops early exactly on an image request for which the
      generator yields no image; it then skips the URL scan. */
  lemma AbortIff(cfg: Config, msg: Message, reg: Registry, world: World)
    ensures HandleMessage(cfg, msg, reg, world).status == Aborted <==>
              Classify(cfg, msg).ImageRequest? && world.images == []
    ensures HandleMessage(cfg, msg, reg, world).status == Aborted ==>
              HandleMessage(cfg, msg, reg, world).acts == [GenerateImages(Prompt(cfg, msg.body))]
  {
  }

  /** Unless the handler stopped early, every URL of the body is fetched
      exactly once, in first-seen order, whatever branch was taken. */
  lemma UrlScanAlwaysRuns(cfg: Config, msg: Message, reg: Registry, world: World)
    requires msg.sender != cfg.nick
    requires HandleMessage(cfg, msg, reg, world).status == Completed
    ensures Filter(HandleMessage(cfg, msg, reg, world).acts, IsFetch)
            == Fetches(ExtractUrls(msg.body))
  {
    var c := Classify(cfg, msg);
    var b := Branch(msg, reg, world, c);
    var urls := ExtractUrls(msg.body);
    var scan := UrlScan(b.reg, msg.room, urls, world.fetch, MaxFileLen(cfg));
    UrlScanFetchesEach(b.reg, msg.room, urls, world.fetch, MaxFileLen(cfg));
    FilterAppend(b.acts, scan.acts, IsFetch);
  }

  /** A message that is neither addressed to the bot nor an image request
      leaves the registry alone except for linked images, and its only
      replies are the reference replies to the URLs of its body. */
  lemma PassiveFlow(cfg: Config, msg: Message, reg: Registry, world: World)
    requires Classify(cfg, msg).Passive?
    ensures var out := HandleMessage(cfg, msg, reg, world);
            var urls := ExtractUrls(msg.body);
            && out.status == Completed
            && out.acts == UrlScan(reg, msg.room, urls, world.fetch, MaxFileLen(cfg)).acts
            && Filter(out.acts, IsFetch) == Fetches(urls)
            && Filter(out.acts, IsSendReply) == ScanReplies(msg.room, urls, world.fetch, MaxFileLen(cfg))
  {
    var urls := ExtractUrls(msg.body);
    var scan := UrlScan(reg, msg.room, urls, world.fetch, MaxFileLen(cfg));
    assert HandleMessage(cfg, msg, reg, world).acts == [] + scan.acts;
    assert [] + scan.acts == scan.acts;
    UrlScanFetchesEach(reg, msg.room, urls, world.fetch, MaxFileLen(cfg));
    UrlScanReplies(reg, msg.room, urls, world.fetch, MaxFileLen(cfg));
  }

  /** A question sends the whole original body to the room's conversation,
      then uploads the page only for an oversized answer, then replies with
      the finalized answer and the quote of the message. */
  lemma MentionFlow(cfg: Config, msg: Message, reg: Registry, world: World)
    requires Classify(cfg, msg).Mention?
    ensures var out := HandleMessage(cfg, msg, reg, world);
            var text := ReplyText(world.chat);
            var k := if Oversized(text) then 2 else 1;
            && |out.acts| > k
            && out.acts[0] == AskText(msg.room, GetOrCreate(reg, msg.room).handle, msg.body)
            && (Oversized(text) ==> out.acts[1] == Upload(PageName, PageType))
            && out.acts[k] == SendReply(msg.room, Quote(msg.sender, msg.body), Finalize(text, world.page))
            && Filter(out.acts, IsUpload) == (if Oversized(text) then [Upload(PageName, PageType)] else [])
            && out.status == Completed
  {
    var c := Classify(cfg, msg);
    var r := Respond(reg, msg.room, c, world.chat);
    var b := Branch(msg, reg, world, c);
    var tail := ReplyActions(msg, r.text, world.page);
    assert b.acts == r.acts + tail;
    var scan := UrlScan(b.reg, msg.room, ExtractUrls(msg.body), world.fetch, MaxFileLen(cfg));
    assert HandleMessage(cfg, msg, reg, world).acts == r.acts + tail + scan.acts;
    QuestionUploads(cfg, msg, reg, world);
  }

  /** A question uploads the rendered page once for an oversized answer and
      not at all otherwise; the URL scan uploads nothing. */
  lemma QuestionUploads(cfg: Config, msg: Message, reg: Registry, world: World)
    requires Classify(cfg, msg).Mention?
    ensures Filter(HandleMessage(cfg, msg, reg, world).acts, IsUpload)
            == (if Oversized(ReplyText(world.chat)) then [Upload(PageName, PageType)] else [])
  {
    var c := Classify(cfg, msg);
    var r := Respond(reg, msg.room, c, world.chat);
    var b := Branch(msg, reg, world, c);
    var tail := ReplyActions(msg, r.text, world.page);
    var urls := ExtractUrls(msg.body);
    var scan := UrlScan(b.reg, msg.room, urls, world.fetch, MaxFileLen(cfg));
    assert b.acts == r.acts + tail;
    assert HandleMessage(cfg, msg, reg, world).acts == b.acts + scan.acts;
    UrlScanOnlyDescribes(b.reg, msg.room, urls, world.fetch, MaxFileLen(cfg));
    ReplyUploads(r.acts, tail, scan.acts);
    ReplyActionsUploads(msg, r.text, world.page);
  }

  /** The reply part of a question uploads the page once for an oversized
      answer and not at all otherwise. */
  lemma ReplyActionsUploads(msg: Message, text: string, page: UploadResult)
    ensures Filter(ReplyActions(msg, text, page), IsUpload)
            == (if Oversized(text) then [Upload(PageName, PageType)] else [])
  {
    var acts := ReplyActions(msg, text, page);
    var last := [acts[|acts| - 1]];
    assert acts == (if Oversized(text) then [Upload(PageName, PageType)] else []) + last;
    FilterNone(last, IsUpload);
    if Oversized(text) {
      FilterCons(Upload(PageName, PageType), last, IsUpload);
    }
  }

  /** Around the reply part of a question, the ask before it and a URL scan
      after it add no upload. */
  lemma ReplyUploads(ask: seq<Action>, tail: seq<Action>, scan: seq<Action>)
    requires forall i :: 0 <= i < |ask| ==> ask[i].AskText?
    requires forall a :: a in scan ==> a.FetchUrl? || a.AskImage? || a.SendReply?
    ensures Filter(ask + tail + scan, IsUpload) == Filter(tail, IsUpload)
  {
    assert forall i :: 0 <= i < |scan| ==> scan[i] in scan;
    FilterNone(ask, IsUpload);
    FilterNone(scan, IsUpload);
    FilterAppend(ask + tail, scan, IsUpload);
    FilterAppend(ask, tail, IsUpload);
  }

  /** The forget command replies with the fixed text whatever follows the
      word, never sends text to the model, and leaves the room without a
      conversation unless a linked image in the same message is described
      afterwards. */
  lemma ForgetFlow(cfg: Config, msg: Message, reg: Registry, world: World)
    requires Classify(cfg, msg) == Command(Forget)
    ensures var out := HandleMessage(cfg, msg, reg, world);
            && |out.acts| > 0
            && out.acts[0] == SendReply(msg.room, Quote(msg.sender, msg.body), ForgetText)
            && (forall a :: a in out.acts ==> !a.AskText?)
            && (msg.room in out.reg.sessions ==> exists a :: a in out.acts && a.AskImage?)
  {
    var c := Classify(cfg, msg);
    var b := Branch(msg, reg, world, c);
    var urls := ExtractUrls(msg.body);
    var scan := UrlScan(b.reg, msg.room, urls, world.fetch, MaxFileLen(cfg));
    var out := HandleMessage(cfg, msg, reg, world);
    assert b.acts == [SendReply(msg.room, Quote(msg.sender, msg.body), ForgetText)] by {
      assert |ForgetText| <= Threshold;
    }
    assert out.acts == b.acts + scan.acts && out.reg == scan.reg;
    assert msg.room !in b.reg.sessions;
    UrlScanCreatesOnlyWhenAsking(b.reg, msg.room, urls, world.fetch, MaxFileLen(cfg));
    assert forall a :: a in out.acts ==> !a.AskText? by {
      UrlScanOnlyDescribes(b.reg, msg.room, urls, world.fetch, MaxFileLen(cfg));
      forall a | a in out.acts ensures !a.AskText? {
        if a !in scan.acts {
          assert a in b.acts;
        }
      }
    }
    if msg.room in out.reg.sessions {
      var a :| a in scan.acts && a.AskImage?;
      assert a in out.acts;
    }
  }

  /** Prefixing the generator request and appending the URL scan changes
      none of the upload, media or follow-up messages of the image loop. */
  lemma FilterAroundLoop(g: Action, loop: seq<Action>, scan: seq<Action>, keep: Action -> bool)
    requires !keep(g)
    requires forall i :: 0 <= i < |scan| ==> !keep(scan[i])
    ensures Filter([g] + loop + scan, keep) == Filter(loop, keep)
  {
    FilterNone(scan, keep);
    FilterAppend([g] + loop, scan, keep);
    FilterCons(g, loop, keep);
  }

  /** The trace of an image request that yields images: the generator
      request, the image loop, then the URL scan. */
  lemma ImageRequestTrace(cfg: Config, msg: Message, reg: Registry, world: World)
    requires Classify(cfg, msg).ImageRequest?
    requires world.images != []
    ensures var loop := ImageLoop(reg, msg.room, world.images);
            var out := HandleMessage(cfg, msg, reg, world);
            && out.status == Completed
            && out.acts == [GenerateImages(Prompt(cfg, msg.body))] + loop.acts
                           + UrlScan(loop.reg, msg.room, ExtractUrls(msg.body), world.fetch, MaxFileLen(cfg)).acts
  {
  }

  /** What the image loop's uploads, media and follow-ups amount to, with the
      generator request before it and a URL scan after it. */
  lemma ImageTraceFilters(g: Action, reg: Registry, room: Room, images: seq<GeneratedImage>, scan: seq<Action>)
    requires g.GenerateImages?
    requires forall a :: a in scan ==> a.FetchUrl? || a.AskImage? || a.SendReply?
    ensures var acts := [g] + ImageLoop(reg, room, images).acts + scan;
            && Filter(acts, IsUpload) == Repeat(Upload(ImageName, ImageType), |images|)
            && Filter(acts, IsMedia) == MediaMessages(room, images)
            && Filter(acts, IsSendText) == FollowUps(room, images)
  {
    var loop := ImageLoop(reg, room, images);
    assert forall i :: 0 <= i < |scan| ==> scan[i] in scan;
    ImageLoopUploads(reg, room, images);
    FilterAroundLoop(g, loop.acts, scan, IsUpload);
    ImageLoopMedia(reg, room, images);
    FilterAroundLoop(g, loop.acts, scan, IsMedia);
    ImageLoopFollowUps(reg, room, images);
    FilterAroundLoop(g, loop.acts, scan, IsSendText);
  }

  /** The generator request is the only one in the trace of an image
      request: the loop and the URL scan make none. */
  lemma ImageTraceGenerates(g: Action, reg: Registry, room: Room, images: seq<GeneratedImage>, scan: seq<Action>)
    requires g.GenerateImages?
    requires forall a :: a in scan ==> a.FetchUrl? || a.AskImage? || a.SendReply?
    ensures Filter([g] + ImageLoop(reg, room, images).acts + scan, IsGenerate) == [g]
  {
    var loop := ImageLoop(reg, room, images);
    assert forall i :: 0 <= i < |scan| ==> scan[i] in scan;
    ImageLoopGeneratesNothing(reg, room, images);
    FilterNone(scan, IsGenerate);
    FilterAppend([g] + loop.acts, scan, IsGenerate);
    FilterCons(g, loop.acts, IsGenerate);
  }

  /** An image request with N >= 1 images asks the generator once, first,
      with the prompt, and makes exactly N uploads and N media messages, in blob
      order, and one follow-up for each image with a non-empty description.
      The URL scan adds none of these; it may add description requests of
      its own for linked images. */
  lemma ImageRequestFlow(cfg: Config, msg: Message, reg: Registry, world: World)
    requires Classify(cfg, msg).ImageRequest?
    requires world.images != []
    ensures var out := HandleMessage(cfg, msg, reg, world);
            && out.status == Completed
            && out.acts[0] == GenerateImages(Prompt(cfg, msg.body))
            && Filter(out.acts, IsGenerate) == [GenerateImages(Prompt(cfg, msg.body))]
            && Filter(out.acts, IsUpload) == Repeat(Upload(ImageName, ImageType), |world.images|)
            && Filter(out.acts, IsMedia) == MediaMessages(msg.room, world.images)
            && Filter(out.acts, IsSendText) == FollowUps(msg.room, world.images)
  {
    var loop := ImageLoop(reg, msg.room, world.images);
    var scan := UrlScan(loop.reg, msg.room, ExtractUrls(msg.body), world.fetch, MaxFileLen(cfg));
    ImageRequestTrace(cfg, msg, reg, world);
    UrlScanOnlyDescribes(loop.reg, msg.room, ExtractUrls(msg.body), world.fetch, MaxFileLen(cfg));
    ImageTraceFilters(GenerateImages(Prompt(cfg, msg.body)), reg, msg.room, world.images, scan.acts);
    ImageTraceGenerates(GenerateImages(Prompt(cfg, msg.body)), reg, msg.room, world.images, scan.acts);
  }
}

=== FILE: replies.dfy ===
/** The texts the handler composes: the fixed replies, the oversize
    fallback for long model answers, the quote attached to a mention reply
    and the follow-up sent under a generated image. */
module Replies {
  import opened Text
  import opened Effects

  /** `respond_text`'s answer to the forget command. */
  const ForgetText: string := "Drinking to forget! \U{1F37B}"

  /** `respond_text`'s answer to the help command, triple-quoted with its
      leading line break and trailing indentation. */
  const HelpText: string :=
    "\nHi! I'm a bot that interacts with the Google Gemini Api for XMPP.\n"
    + "See my source code at https://github.com/jjj333-p/gemini-xmpp\n        "

  /** What replaces an empty answer. */
  const RefusedText: string := "The llm refused to respond"

  /** Answers longer than this are uploaded and truncated. */
  const Threshold: nat := 315

  /** How much of a long answer is kept in the room. */
  const Kept: nat := 300

  const TruncationMarker: string := " { truncated } \n"

  /** The rendered page of a long answer is uploaded under this name and type. */
  const PageName: string := "o.html"
  const PageType: string := "text/html"

  /** Whether an answer goes through the render-upload-truncate fallback. */
  predicate Oversized(answer: string) {
    |answer| > Threshold
  }

  /** The body of a mention reply: an empty answer becomes `RefusedText`; an
      answer of at most 315 characters is sent as it is; a longer one is cut
      to its first 300 characters, followed by the marker and the upload's
      link, or the upload's error text when it failed. */
  function Finalize(answer: string, upload: UploadResult): (body: string)
    ensures body != ""
    ensures answer == "" ==> body == RefusedText
    ensures answer != "" && !Oversized(answer) ==> body == answer
    ensures Oversized(answer) ==>
      && |body| == Kept + |TruncationMarker| + |UploadText(upload)|
      && body[..Kept] == answer[..Kept]
      && body[Kept..Kept + |TruncationMarker|] == TruncationMarker
      && body[Kept + |TruncationMarker|..] == UploadText(upload)
  {
    var r := if answer == "" then RefusedText else answer;
    if Oversized(r) then r[..Kept] + TruncationMarker + UploadText(upload) else r
  }

  /** A delivered body is never longer than the threshold, unless it is the
      truncated form, which is longer than 300 characters by exactly the
      marker and the link or error text. */
  lemma FinalizeBounded(answer: string, upload: UploadResult)
    ensures |Finalize(answer, upload)| <= Threshold
            || |Finalize(answer, upload)| == Kept + |TruncationMarker| + |UploadText(upload)|
  {
  }

  /** A failed upload does not lose the reply: the truncated answer is still
      delivered, with the error text where the link would be. */
  lemma FinalizeKeepsReplyOnUploadFailure(answer: string, error: string)
    requires Oversized(answer)
    ensures StartsWith(Finalize(answer, UploadFailed(error)), answer[..Kept])
    ensures Finalize(answer, UploadFailed(error))[Kept + |TruncationMarker|..] == error
  {
  }

  /** The fallback quote of a mention reply: the sender's nick, a line break,
      "> " and the body's lines joined with "> ". The lines are joined on one
      line, not one quoted line each: the quote keeps the body's text and only
      turns its line breaks (all but a single trailing one) into "> ". */
  function Quote(nick: string, body: string): (q: string)
    ensures q == nick + "\n> " + ReplaceNewlines(DropFinalNewline(body), "> ")
  {
    JoinLinesIsReplace(body, "> ");
    nick + "\n> " + Join(SplitLines(body), "> ")
  }

  /** The message sent under a generated image: its link quoted, then the
      model's description. */
  function FollowUp(url: string, description: string): (m: string)
    ensures StartsWith(m, "> " + url + "\n")
    ensures m[|url| + 3..] == description
  {
    "> " + url + "\n" + description
  }
}

=== FILE: sessions.dfy ===
/** The handler's `chats` dictionary: one model conversation per room,
    created on first use and dropped only by the forget command. A
    conversation handle stands for the object `client.chats.create` returns;
    the registry hands out a fresh handle every time it creates one. */
module Sessions {

  /** A room's bare JID. */
  type Room = string

  /** An opaque model conversation. */
  type Handle = nat

  datatype Registry = Registry(sessions: map<Room, Handle>, next: Handle)

  /** Every handle was handed out before `next`, and no two rooms share one. */
  ghost predicate Valid(reg: Registry) {
    && (forall r :: r in reg.sessions ==> reg.sessions[r] < reg.next)
    && (forall a, b :: a in reg.sessions && b in reg.sessions && a != b ==>
          reg.sessions[a] != reg.sessions[b])
  }

  /** The registry at start-up: no room has a conversation. */
  function Empty(): (reg: Registry)
    ensures Valid(reg)
    ensures reg.sessions == map[]
  {
    Registry(map[], 0)
  }

  /** `a` and `b` agree on every room other than `room`. */
  ghost predicate SameElsewhere(a: Registry, b: Registry, room: Room) {
    forall r :: r != room ==>
      && (r in a.sessions <==> r in b.sessions)
      && (r in a.sessions ==> a.sessions[r] == b.sessions[r])
  }

  /** `b` still holds `room`'s conversation if `a` had one. */
  ghost predicate Keeps(a: Registry, b: Registry, room: Room) {
    room in a.sessions ==> room in b.sessions && b.sessions[room] == a.sessions[room]
  }

  lemma SameElsewhereTrans(a: Registry, b: Registry, c: Registry, room: Room)
    requires SameElsewhere(a, b, room) && SameElsewhere(b, c, room)
    ensures SameElsewhere(a, c, room)
  {
  }

  datatype Lookup = Lookup(reg: Registry, handle: Handle)

  /** The room's conversation: the one the registry holds, or a new one,
      recorded for the room, when it holds none. */
  function GetOrCreate(reg: Registry, room: Room): (l: Lookup)
    ensures room in l.reg.sessions && l.reg.sessions[room] == l.handle
    ensures room in reg.sessions ==> l.reg == reg
    ensures room !in reg.sessions && Valid(reg) ==> l.handle !in reg.sessions.Values
    ensures SameElsewhere(reg, l.reg, room)
    ensures Keeps(reg, l.reg, room)
    ensures Valid(reg) ==> Valid(l.reg)
  {
    if room in reg.sessions then Lookup(reg, reg.sessions[room])
    else Lookup(Registry(reg.sessions[room := reg.next], reg.next + 1), reg.next)
  }

  /** Drops the room's conversation, if it has one. */
  function Forget(reg: Registry, room: Room): (r: Registry)
    ensures room !in r.sessions
    ensures room !in reg.sessions ==> r == reg
    ensures SameElsewhere(reg, r, room)
    ensures Valid(reg) ==> Valid(r)
  {
    if room in reg.sessions then reg.(sessions := reg.sessions - {room}) else reg
  }

  /** Asking twice for a room's conversation gives the same conversation and
      changes nothing the second time. */
  lemma GetOrCreateIdempotent(reg: Registry, room: Room)
    ensures GetOrCreate(GetOrCreate(reg, room).reg, room) == GetOrCreate(reg, room)
  {
  }

  /** Forgetting twice is forgetting once. */
  lemma ForgetIdempotent(reg: Registry, room: Room)
    ensures Forget(Forget(reg, room), room) == Forget(reg, room)
  {
  }

  /** After forgetting, the next use of the room starts a conversation that no
      room has held before. */
  lemma ForgetThenCreateIsFresh(reg: Registry, room: Room)
    requires Valid(reg)
    ensures GetOrCreate(Forget(reg, room), room).handle !in reg.sessions.Values
  {
  }
}

=== FILE: text.dfy ===
/** String helpers with the meaning Python gives them in the bot's handler:
    `startswith`, total slicing, `lower`, `splitlines`, `join` and the decimal
    rendering used inside f-strings. Strings are sequences of code points,
    as Python's `str` is. */
module Text {

  /** Python's `s.startswith(p)`. */
  predicate StartsWith(s: string, p: string) {
    |p| <= |s| && s[..|p|] == p
  }

  /** Python's `s[k:]` for a non-negative `k`: a start past the end gives the
      empty string instead of an error. */
  function SliceFrom(s: string, k: nat): (r: string)
    ensures k <= |s| ==> r == s[k..]
    ensures |s| <= k ==> r == []
  {
    if k <= |s| then s[k..] else []
  }

  predicate IsUpper(c: char) {
    'A' <= c <= 'Z'
  }

  function LowerChar(c: char): (d: char)
    ensures !IsUpper(d)
    ensures !IsUpper(c) ==> d == c
  {
    if IsUpper(c) then (c as int + 32) as char else c
  }

  /** Python's lower-casing, restricted to the ASCII letters: the result has
      no upper-case letter left, and every other character stays in place. */
  function Lower(s: string): (r: string)
    ensures |r| == |s|
    ensures forall i :: 0 <= i < |s| ==> r[i] == LowerChar(s[i])
    ensures forall i :: 0 <= i < |r| ==> !IsUpper(r[i])
    ensures forall i :: 0 <= i < |s| && !IsUpper(s[i]) ==> r[i] == s[i]
  {
    seq(|s|, i requires 0 <= i < |s| => LowerChar(s[i]))
  }

  /** A lower-cased string starts with `p` only if `p` has no upper-case letter. */
  lemma LowerPrefixHasNoUpper(s: string, p: string, i: nat)
    requires StartsWith(Lower(s), p)
    requires i < |p|
    ensures !IsUpper(p[i])
  {
    assert p[i] == Lower(s)[i];
  }

  /** Index of the first '\n' of `s`, or `|s|` when there is none. */
  function NewlineIndex(s: string): (k: nat)
    ensures k <= |s|
    ensures k < |s| ==> s[k] == '\n'
    ensures forall i :: 0 <= i < k ==> s[i] != '\n'
  {
    if s == [] || s[0] == '\n' then 0 else 1 + NewlineIndex(s[1..])
  }

  /** `str.splitlines()` with '\n' as the only line break: the pieces between
      breaks, where a final break does not open an empty last line. */
  function SplitLines(s: string): (lines: seq<string>)
    ensures s != [] <==> lines != []
    ensures forall i :: 0 <= i < |lines| ==> '\n' !in lines[i]
    decreases |s|
  {
    if s == [] then []
    else
      var k := NewlineIndex(s);
      if k == |s| then [s] else [s[..k]] + SplitLines(s[k + 1..])
  }

  /** `sep.join(parts)`. */
  function Join(parts: seq<string>, sep: string): string {
    if parts == [] then []
    else if |parts| == 1 then parts[0]
    else parts[0] + sep + Join(parts[1..], sep)
  }

  /** `s` with every '\n' replaced by `sep`. */
  function ReplaceNewlines(s: string, sep: string): string {
    if s == [] then []
    else (if s[0] == '\n' then sep else [s[0]]) + ReplaceNewlines(s[1..], sep)
  }

  /** `s` without one trailing '\n', if it has one. */
  function DropFinalNewline(s: string): string {
    if |s| > 0 && s[|s| - 1] == '\n' then s[..|s| - 1] else s
  }

  lemma {:induction false} ReplaceNewlinesAppend(a: string, b: string, sep: string)
    ensures ReplaceNewlines(a + b, sep) == ReplaceNewlines(a, sep) + ReplaceNewlines(b, sep)
    decreases |a|
  {
    if a != [] {
      assert (a + b)[1..] == a[1..] + b;
      ReplaceNewlinesAppend(a[1..], b, sep);
    } else {
      assert a + b == b;
    }
  }

  lemma {:induction false} ReplaceNewlinesNone(s: string, sep: string)
    requires '\n' !in s
    ensures ReplaceNewlines(s, sep) == s
    decreases |s|
  {
    if s != [] {
      assert '\n' !in s[1..];
      ReplaceNewlinesNone(s[1..], sep);
      assert s == [s[0]] + s[1..];
    }
  }

  /** Replacing every line break by a line break changes nothing. */
  lemma {:induction false} ReplaceNewlinesIdentity(s: string)
    ensures ReplaceNewlines(s, "\n") == s
    decreases |s|
  {
    if s != [] {
      ReplaceNewlinesIdentity(s[1..]);
      assert s == [s[0]] + s[1..];
    }
  }

  /** A break between a break-free `a` and the rest becomes `sep`. */
  lemma ReplaceNewlinesAtBreak(a: string, d: string, sep: string)
    requires '\n' !in a
    ensures ReplaceNewlines(a + "\n" + d, sep) == a + sep + ReplaceNewlines(d, sep)
  {
    ReplaceNewlinesAppend(a + "\n", d, sep);
    ReplaceNewlinesAppend(a, "\n", sep);
    ReplaceNewlinesNone(a, sep);
  }

  /** The first `k` characters of `s` hold no line break. */
  lemma BeforeNewline(s: string)
    ensures '\n' !in s[..NewlineIndex(s)]
  {
    var a := s[..NewlineIndex(s)];
    forall i | 0 <= i < |a| ensures a[i] != '\n' {
      assert a[i] == s[i];
    }
  }

  /** A non-empty string without a break is a single line. */
  lemma SplitLinesSingle(s: string)
    requires s != [] && NewlineIndex(s) == |s|
    ensures SplitLines(s) == [s] && '\n' !in s
  {
    BeforeNewline(s);
    assert s[..|s|] == s;
  }

  /** A string with a break is its first line followed by the lines after the break. */
  lemma SplitLinesBreak(s: string)
    requires NewlineIndex(s) < |s|
    ensures s == s[..NewlineIndex(s)] + "\n" + s[NewlineIndex(s) + 1..]
    ensures SplitLines(s) == [s[..NewlineIndex(s)]] + SplitLines(s[NewlineIndex(s) + 1..])
    ensures '\n' !in s[..NewlineIndex(s)]
  {
    BeforeNewline(s);
    BreakSplits(s, NewlineIndex(s));
  }

  lemma BreakSplits(s: string, k: nat)
    requires k < |s| && s[k] == '\n'
    ensures s == s[..k] + "\n" + s[k + 1..]
  {
    assert [s[k]] == "\n";
    assert s == s[..k] + [s[k]] + s[k + 1..];
  }

  lemma JoinCons(a: string, rest: seq<string>, sep: string)
    requires rest != []
    ensures Join([a] + rest, sep) == a + sep + Join(rest, sep)
  {
    assert ([a] + rest)[1..] == rest;
  }

  /** Dropping a trailing break only touches the part after an inner break. */
  lemma DropFinalAfterBreak(a: string, b: string)
    ensures b == [] ==> DropFinalNewline(a + "\n" + b) == a
    ensures b != [] ==> DropFinalNewline(a + "\n" + b) == a + "\n" + DropFinalNewline(b)
  {
    var s := a + "\n" + b;
    if b == [] {
      assert s[..|s| - 1] == a;
    } else if b[|b| - 1] == '\n' {
      assert s[|s| - 1] == b[|b| - 1];
      assert s[..|s| - 1] == a + "\n" + b[..|b| - 1];
    } else {
      assert s[|s| - 1] == b[|b| - 1];
    }
  }

  /** Joining the lines of `s` with `sep` is `s` with its line breaks turned
      into `sep`, once a single trailing break is dropped. */
  lemma {:induction false} JoinLinesIsReplace(s: string, sep: string)
    ensures Join(SplitLines(s), sep) == ReplaceNewlines(DropFinalNewline(s), sep)
    decreases |s|
  {
    if s != [] {
      var k := NewlineIndex(s);
      if k == |s| {
        SplitLinesSingle(s);
        ReplaceNewlinesNone(s, sep);
        assert s[|s| - 1] in s;
      } else {
        SplitLinesBreak(s);
        var a, b := s[..k], s[k + 1..];
        ReplaceNewlinesNone(a, sep);
        DropFinalAfterBreak(a, b);
        if b != [] {
          JoinCons(a, SplitLines(b), sep);
          JoinLinesIsReplace(b, sep);
          ReplaceNewlinesAtBreak(a, DropFinalNewline(b), sep);
        }
      }
    }
  }

  /** Splitting into lines loses nothing but a single trailing line break. */
  lemma SplitLinesRoundTrip(s: string)
    ensures Join(SplitLines(s), "\n") + (if s != DropFinalNewline(s) then "\n" else "") == s
  {
    JoinLinesIsReplace(s, "\n");
    ReplaceNewlinesIdentity(DropFinalNewline(s));
    if s != DropFinalNewline(s) {
      assert s == s[..|s| - 1] + "\n";
    }
  }

  predicate IsDigit(c: char) {
    '0' <= c <= '9'
  }

  function DigitChar(d: nat): (c: char)
    requires d < 10
    ensures IsDigit(c)
  {
    (48 + d) as char
  }

  function DigitValue(c: char): (d: nat)
    requires IsDigit(c)
    ensures d < 10
  {
    c as int - 48
  }

  /** Decimal digits of `n`, most significant first, no leading zeros. */
  function NatToString(n: nat): (s: string)
    ensures |s| > 0
    ensures forall i :: 0 <= i < |s| ==> IsDigit(s[i])
    ensures s[0] == '0' <==> n == 0
    decreases n
  {
    if n < 10 then [DigitChar(n)]
    else
      var high := NatToString(n / 10);
      assert (high + [DigitChar(n % 10)])[0] == high[0];
      high + [DigitChar(n % 10)]
  }

  predicate AllDigits(s: string) {
    forall i :: 0 <= i < |s| ==> IsDigit(s[i])
  }

  /** Reads a string of decimal digits back as a number. */
  function ParseNat(s: string): nat
    requires AllDigits(s)
  {
    if s == [] then 0 else ParseNat(s[..|s| - 1]) * 10 + DigitValue(s[|s| - 1])
  }

  /** Reads an optional '-' followed by decimal digits. */
  function ParseInt(s: string): int
    requires (|s| > 0 && s[0] == '-' && AllDigits(s[1..])) || AllDigits(s)
  {
    if |s| > 0 && s[0] == '-' then 0 - ParseNat(s[1..]) else ParseNat(s)
  }

  lemma {:induction false} NatToStringRoundTrip(n: nat)
    ensures ParseNat(NatToString(n)) == n
    decreases n
  {
    var s := NatToString(n);
    if n >= 10 {
      NatToStringRoundTrip(n / 10);
      assert s[..|s| - 1] == NatToString(n / 10);
    }
  }

  /** The decimal text of an integer, as Python formats it inside an
      f-string: a minus sign for a negative number, then its digits with no
      leading zero, and "0" alone for zero. It reads back as the same
      integer. */
  function IntToString(n: int): (s: string)
    ensures (|s| > 0 && s[0] == '-' && AllDigits(s[1..])) || AllDigits(s)
    ensures |s| > 0
    ensures ParseInt(s) == n
    ensures s[0] == '-' <==> n < 0
    ensures s[0] == '0' ==> s == "0"
    ensures s[0] == '-' ==> |s| > 1 && s[1] != '0'
  {
    if n < 0 then
      NatToStringRoundTrip(-n);
      assert ("-" + NatToString(-n))[1..] == NatToString(-n);
      "-" + NatToString(-n)
    else
      NatToStringRoundTrip(n);
      NatToString(n)
  }
}

=== FILE: urls.dfy ===
/** URL extraction from a message body: the handler's `url_pattern` and the
    loop that runs `re.findall` over every line not starting with '>' and
    keeps the first occurrence of each URL. */
module Urls {
  import opened Text

  /** One character of the pattern's repeated group, alternative by
      alternative: ASCII letters, digits, the range '$'..'_' together with
      "@.&+", and "!*\(),". The `%XX` alternative adds nothing: '%' and the
      hex digits are already in the range. */
  predicate UrlChar(c: char) {
    || ('a' <= c <= 'z')
    || ('A' <= c <= 'Z')
    || ('0' <= c <= '9')
    || ('$' <= c <= '_')
    || c in "@.&+"
    || c in "!*\\(),"
  }

  /** The class collapses to lower-case letters, the code points 0x24..0x5F
      and '!'. In particular a space, '"', '#', '`' and "{|}~" end a URL while
      '<', '>', '[', ']', '^' and '\' do not. */
  lemma UrlCharIsRange(c: char)
    ensures UrlChar(c) <==> ('a' <= c <= 'z') || ('$' <= c <= '_') || c == '!'
  {
  }

  const Http: string := "http://"
  const Https: string := "https://"

  predicate StartsWithAt(s: string, i: nat, p: string) {
    i + |p| <= |s| && s[i..i + |p|] == p
  }

  /** The length of the `http[s]?://` that a match starting at `i` consumes, or
      0 when no match starts at `i`: a scheme must be followed by at least one
      class character. */
  function SchemeAt(s: string, i: nat): (n: nat)
    ensures n == 0 || n == |Http| || n == |Https|
    ensures n > 0 ==> i + n < |s| && UrlChar(s[i + n])
    ensures n == |Https| ==> StartsWithAt(s, i, Https)
    ensures n == |Http| ==> StartsWithAt(s, i, Http)
    ensures StartsWithAt(s, i, Https) && i + |Https| < |s| && UrlChar(s[i + |Https|]) ==> n == |Https|
    ensures StartsWithAt(s, i, Http) && i + |Http| < |s| && UrlChar(s[i + |Http|]) ==> n == |Http|
  {
    if StartsWithAt(s, i, Https) && i + |Https| < |s| && UrlChar(s[i + |Https|]) then
      // the two schemes differ at their fifth character, so only one can match
      assert s[i..i + |Http|][4] == s[i..i + |Https|][4] == 's';
      |Https|
    else if StartsWithAt(s, i, Http) && i + |Http| < |s| && UrlChar(s[i + |Http|]) then |Http|
    else 0
  }

  /** The end of the run of class characters that starts at `j` (greedy `+`). */
  function RunEnd(s: string, j: nat): (e: nat)
    requires j <= |s|
    ensures j <= e <= |s|
    ensures forall k :: j <= k < e ==> UrlChar(s[k])
    ensures e == |s| || !UrlChar(s[e])
    decreases |s| - j
  {
    if j < |s| && UrlChar(s[j]) then RunEnd(s, j + 1) else j
  }

  /** A string the pattern matches in full: a scheme, then one or more class
      characters and nothing else. */
  predicate IsUrl(u: string) {
    || (StartsWith(u, Https) && |u| > |Https| && forall k :: |Https| <= k < |u| ==> UrlChar(u[k]))
    || (StartsWith(u, Http) && |u| > |Http| && forall k :: |Http| <= k < |u| ==> UrlChar(u[k]))
  }

  /** The position of one match inside a line. */
  datatype Span = Span(start: nat, end: nat)

  /** A match ending at `e` is greedy: the character after it, if any, is
      outside the class. */
  predicate EndsRun(s: string, e: nat) {
    e == |s| || (e < |s| && !UrlChar(s[e]))
  }

  predicate Covered(spans: seq<Span>, p: nat) {
    exists k :: 0 <= k < |spans| && spans[k].start <= p < spans[k].end
  }

  /** Every span lies in `s[i..]` and is not empty. */
  predicate Within(s: string, i: nat, spans: seq<Span>) {
    forall k :: 0 <= k < |spans| ==> i <= spans[k].start < spans[k].end <= |s|
  }

  /** Every span is a full, greedy match. */
  predicate Matches(s: string, spans: seq<Span>)
    requires Within(s, 0, spans)
  {
    forall k :: 0 <= k < |spans| ==>
      IsUrl(s[spans[k].start..spans[k].end]) && EndsRun(s, spans[k].end)
  }

  /** Spans come left to right and do not overlap. */
  predicate Ordered(spans: seq<Span>) {
    forall k :: 0 <= k < |spans| - 1 ==> spans[k].end <= spans[k + 1].start
  }

  /** Every position from `i` on where a match could begin is inside a span. */
  predicate Complete(s: string, i: nat, spans: seq<Span>) {
    forall p :: i <= p < |s| && SchemeAt(s, p) > 0 ==> Covered(spans, p)
  }

  /** `re.finditer(url_pattern, s[i:])` as positions: left to right, each
      match as long as it can be, the scan resuming after each match. Every
      position from `i` on where a match could begin lies inside some match. */
  function Scan(s: string, i: nat): (spans: seq<Span>)
    requires i <= |s|
    ensures Within(s, i, spans)
    ensures Matches(s, spans)
    ensures Ordered(spans)
    ensures Complete(s, i, spans)
    decreases |s| - i
  {
    if i == |s| then []
    else
      var n := SchemeAt(s, i);
      if n == 0 then
        var rest := Scan(s, i + 1);
        SkipKeepsComplete(s, i, rest);
        rest
      else
        var e := RunEnd(s, i + n);
        MatchIsUrl(s, i, n, e);
        var rest := Scan(s, e);
        PrependMatch(s, i, e, rest);
        [Span(i, e)] + rest
  }

  lemma SkipKeepsComplete(s: string, i: nat, rest: seq<Span>)
    requires i < |s| && SchemeAt(s, i) == 0
    requires Within(s, i + 1, rest) && Complete(s, i + 1, rest)
    ensures Within(s, i, rest) && Complete(s, i, rest)
  {
  }

  lemma PrependMatch(s: string, i: nat, e: nat, rest: seq<Span>)
    requires i < e <= |s|
    requires IsUrl(s[i..e]) && EndsRun(s, e)
    requires Within(s, e, rest) && Matches(s, rest) && Ordered(rest) && Complete(s, e, rest)
    ensures Within(s, i, [Span(i, e)] + rest)
    ensures Matches(s, [Span(i, e)] + rest)
    ensures Ordered([Span(i, e)] + rest)
    ensures Complete(s, i, [Span(i, e)] + rest)
  {
    var r := [Span(i, e)] + rest;
    assert forall k :: 1 <= k < |r| ==> r[k] == rest[k - 1];
    forall p | i <= p < |s| && SchemeAt(s, p) > 0 ensures Covered(r, p) {
      if p < e {
        assert r[0].start <= p < r[0].end;
      } else {
        var k :| 0 <= k < |rest| && rest[k].start <= p < rest[k].end;
        assert r[k + 1] == rest[k];
      }
    }
  }

  lemma MatchIsUrl(s: string, i: nat, n: nat, e: nat)
    requires n == SchemeAt(s, i) > 0
    requires e == RunEnd(s, i + n)
    ensures i + n < e
    ensures IsUrl(s[i..e])
  {
    var u := s[i..e];
    assert forall k :: n <= k < |u| ==> u[k] == s[i + k];
    if n == |Https| {
      assert u[..n] == s[i..i + n];
    } else {
      assert u[..n] == s[i..i + n];
    }
  }

  /** A URL-shaped substring can only start where the pattern can match. */
  lemma UrlStartsScheme(s: string, p: nat, q: nat)
    requires p < q <= |s|
    requires IsUrl(s[p..q])
    ensures SchemeAt(s, p) > 0
  {
    var u := s[p..q];
    if StartsWith(u, Https) && |u| > |Https| {
      assert s[p..p + |Https|] == u[..|Https|];
      assert s[p + |Https|] == u[|Https|];
    } else {
      assert s[p..p + |Http|] == u[..|Http|];
      assert s[p + |Http|] == u[|Http|];
      assert !StartsWithAt(s, p, Https) by {
        assert s[p + 4] == u[4] == ':';
      }
    }
  }

  /** Nothing URL-shaped is skipped: every substring the pattern matches in
      full begins inside one of the reported matches. */
  lemma ScanMissesNothing(s: string, p: nat, q: nat)
    requires p < q <= |s|
    requires IsUrl(s[p..q])
    ensures Covered(Scan(s, 0), p)
  {
    UrlStartsScheme(s, p, q);
  }

  /** `re.findall(url_pattern, line)`: the matched substrings, in order. */
  function FindAll(line: string): (urls: seq<string>)
    ensures forall u :: u in urls ==> IsUrl(u)
  {
    var spans := Scan(line, 0);
    seq(|spans|, k requires 0 <= k < |spans| => line[spans[k].start..spans[k].end])
  }

  /** Python's `line.startswith(">")`: a quoted line of a reply. */
  predicate Quoted(line: string) {
    |line| > 0 && line[0] == '>'
  }

  /** Every match of every line that is not quoted, line by line. */
  function Candidates(lines: seq<string>): seq<string> {
    if lines == [] then []
    else (if Quoted(lines[0]) then [] else FindAll(lines[0])) + Candidates(lines[1..])
  }

  predicate NoDuplicates<T(==)>(xs: seq<T>) {
    forall i, j :: 0 <= i < j < |xs| ==> xs[i] != xs[j]
  }

  /** Position of the first occurrence of `x` in `xs`, or `|xs|` if absent. */
  function FirstIndex<T(==)>(xs: seq<T>, x: T): (k: nat)
    ensures k <= |xs|
    ensures k < |xs| <==> x in xs
    ensures k < |xs| ==> xs[k] == x && x !in xs[..k]
  {
    if xs == [] then 0
    else if xs[0] == x then 0
    else 1 + FirstIndex(xs[1..], x)
  }

  /** The inner loop over one line's matches: append each one that has not been
      seen yet to `seen`. The loop only appends: what was seen before stays at
      the front. */
  function DedupFrom<T(==)>(seen: seq<T>, xs: seq<T>): (r: seq<T>)
    ensures |seen| <= |r|
    ensures r[..|seen|] == seen
    decreases |xs|
  {
    if xs == [] then seen
    else if xs[0] in seen then DedupFrom(seen, xs[1..])
    else
      var r := DedupFrom(seen + [xs[0]], xs[1..]);
      assert r[..|seen|] == (seen + [xs[0]])[..|seen|];
      r
  }

  /** The outer loop over the lines of the body; quoted lines are skipped.
      URLs found on earlier lines stay at the front. */
  function CollectLines(found: seq<string>, lines: seq<string>): (r: seq<string>)
    ensures |found| <= |r|
    ensures r[..|found|] == found
    decreases |lines|
  {
    if lines == [] then found
    else
      var found' := if Quoted(lines[0]) then found else DedupFrom(found, FindAll(lines[0]));
      var r := CollectLines(found', lines[1..]);
      assert r[..|found|] == found'[..|found|];
      r
  }

  /** The URLs of a message body, as the handler collects them: each one a
      full match of the pattern, none twice. */
  function ExtractUrls(body: string): (urls: seq<string>)
    ensures NoDuplicates(urls)
    ensures forall u :: u in urls ==> IsUrl(u)
  {
    var lines := SplitLines(body);
    var c := Candidates(lines);
    CollectLinesIsDedup([], lines);
    DedupNoDuplicates([], c);
    forall u | u in CollectLines([], lines) ensures IsUrl(u) {
      DedupMembers([], c, u);
      CandidatesFromUnquoted(lines, u);
    }
    CollectLines([], lines)
  }

  lemma {:induction false} DedupMembers<T>(seen: seq<T>, xs: seq<T>, x: T)
    ensures x in DedupFrom(seen, xs) <==> x in seen || x in xs
    decreases |xs|
  {
    if xs != [] {
      assert x in xs <==> x == xs[0] || x in xs[1..];
      if xs[0] in seen {
        DedupMembers(seen, xs[1..], x);
      } else {
        DedupMembers(seen + [xs[0]], xs[1..], x);
      }
    }
  }

  lemma {:induction false} DedupNoDuplicates<T>(seen: seq<T>, xs: seq<T>)
    requires NoDuplicates(seen)
    ensures NoDuplicates(DedupFrom(seen, xs))
    decreases |xs|
  {
    if xs != [] {
      if xs[0] in seen {
        DedupNoDuplicates(seen, xs[1..]);
      } else {
        var seen' := seen + [xs[0]];
        assert NoDuplicates(seen') by {
          forall i, j | 0 <= i < j < |seen'| ensures seen'[i] != seen'[j] {
            if j == |seen| {
              assert seen'[i] == seen[i];
            }
          }
        }
        DedupNoDuplicates(seen', xs[1..]);
      }
    }
  }

  /** Running the inner loop over `a` and then over `b` is running it over `a + b`. */
  lemma {:induction false} DedupAppend<T>(seen: seq<T>, a: seq<T>, b: seq<T>)
    ensures DedupFrom(DedupFrom(seen, a), b) == DedupFrom(seen, a + b)
    decreases |a|
  {
    if a == [] {
      assert a + b == b;
    } else {
      assert (a + b)[0] == a[0];
      assert (a + b)[1..] == a[1..] + b;
      if a[0] in seen {
        DedupAppend(seen, a[1..], b);
      } else {
        DedupAppend(seen + [a[0]], a[1..], b);
      }
    }
  }

  /** The entries appended after `seen` come in the order of their first
      occurrence in `xs`, and none of them was already in `seen`. */
  lemma {:induction false} DedupOrder<T>(seen: seq<T>, xs: seq<T>)
    ensures forall i :: |seen| <= i < |DedupFrom(seen, xs)| ==> DedupFrom(seen, xs)[i] !in seen
    ensures forall i, j :: |seen| <= i < j < |DedupFrom(seen, xs)| ==>
              FirstIndex(xs, DedupFrom(seen, xs)[i]) < FirstIndex(xs, DedupFrom(seen, xs)[j])
    decreases |xs|
  {
    var r := DedupFrom(seen, xs);
    if xs != [] {
      var x, rest := xs[0], xs[1..];
      if x in seen {
        DedupOrder(seen, rest);
        forall i | |seen| <= i < |r| ensures FirstIndex(xs, r[i]) == 1 + FirstIndex(rest, r[i]) {
          assert r[i] != x;
        }
      } else {
        var seen' := seen + [x];
        DedupOrder(seen', rest);
        assert r[|seen|] == seen'[|seen|] == x;
        forall i | |seen| <= i < |r| ensures r[i] !in seen {
          if i > |seen| {
            assert r[i] !in seen';
          }
        }
        forall i | |seen| < i < |r| ensures FirstIndex(xs, r[i]) == 1 + FirstIndex(rest, r[i]) {
          assert r[i] !in seen';
          assert r[i] != x;
        }
      }
    }
  }

  /** The handler's nested loops keep the first occurrence of every
      candidate, over all unquoted lines at once. */
  lemma {:induction false} CollectLinesIsDedup(found: seq<string>, lines: seq<string>)
    ensures CollectLines(found, lines) == DedupFrom(found, Candidates(lines))
    decreases |lines|
  {
    if lines != [] {
      var here := if Quoted(lines[0]) then [] else FindAll(lines[0]);
      var found' := DedupFrom(found, here);
      if Quoted(lines[0]) {
        assert found' == found;
      }
      CollectLinesIsDedup(found', lines[1..]);
      DedupAppend(found, here, Candidates(lines[1..]));
    }
  }

  /** A candidate is a match found on some line that is not quoted. */
  lemma {:induction false} CandidatesFromUnquoted(lines: seq<string>, u: string)
    ensures u in Candidates(lines) <==>
            exists k :: 0 <= k < |lines| && !Quoted(lines[k]) && u in FindAll(lines[k])
    decreases |lines|
  {
    if lines != [] {
      CandidatesFromUnquoted(lines[1..], u);
      var here := if Quoted(lines[0]) then [] else FindAll(lines[0]);
      assert u in Candidates(lines) <==> u in here || u in Candidates(lines[1..]);
      if u in Candidates(lines[1..]) {
        var k :| 0 <= k < |lines[1..]| && !Quoted(lines[1..][k]) && u in FindAll(lines[1..][k]);
        assert lines[k + 1] == lines[1..][k];
      }
      if exists k :: 0 <= k < |lines| && !Quoted(lines[k]) && u in FindAll(lines[k]) {
        var k :| 0 <= k < |lines| && !Quoted(lines[k]) && u in FindAll(lines[k]);
        if k > 0 {
          assert lines[1..][k - 1] == lines[k];
        }
      }
    }
  }

  /** What the handler collects: no URL twice; exactly the matches of the
      lines whose first character is not '>' (a '>' further along a line does
      not exclude it); in the order in which each URL first appears. */
  lemma ExtractUrlsSpec(body: string)
    ensures NoDuplicates(ExtractUrls(body))
    ensures forall u :: u in ExtractUrls(body) <==>
              exists k :: 0 <= k < |SplitLines(body)| && !Quoted(SplitLines(body)[k])
                          && u in FindAll(SplitLines(body)[k])
    ensures forall i, j :: 0 <= i < j < |ExtractUrls(body)| ==>
              FirstIndex(Candidates(SplitLines(body)), ExtractUrls(body)[i])
              < FirstIndex(Candidates(SplitLines(body)), ExtractUrls(body)[j])
  {
    var lines := SplitLines(body);
    var c := Candidates(lines);
    CollectLinesIsDedup([], lines);
    DedupNoDuplicates([], c);
    DedupOrder([], c);
    forall u ensures u in ExtractUrls(body) <==>
                     exists k :: 0 <= k < |lines| && !Quoted(lines[k]) && u in FindAll(lines[k])
    {
      DedupMembers([], c, u);
      CandidatesFromUnquoted(lines, u);
    }
  }

  /** Every extracted URL is a full, greedy match of the pattern: a scheme,
      one or more class characters, and at the point where it was found the
      next character (if any) is outside the class. */
  lemma ExtractedUrlsAreMatches(body: string, u: string)
    requires u in ExtractUrls(body)
    ensures IsUrl(u)
    ensures exists k, m :: 0 <= k < |SplitLines(body)| && 0 <= m < |Scan(SplitLines(body)[k], 0)|
              && !Quoted(SplitLines(body)[k])
              && u == SplitLines(body)[k][Scan(SplitLines(body)[k], 0)[m].start..Scan(SplitLines(body)[k], 0)[m].end]
              && EndsRun(SplitLines(body)[k], Scan(SplitLines(body)[k], 0)[m].end)
  {
    ExtractUrlsSpec(body);
    var lines := SplitLines(body);
    var k :| 0 <= k < |lines| && !Quoted(lines[k]) && u in FindAll(lines[k]);
    var urls := FindAll(lines[k]);
    var m :| 0 <= m < |urls| && urls[m] == u;
  }
}
